=== FILE: README.md ===
# Memory and process core of a small RISC-V (Sv32) kernel

A Dafny model of the memory and process core of a small 32-bit RISC-V kernel,
with proofs about it. It covers four parts:

- **The physical page allocator** (`kernel/page.rs`). One flag byte per heap
  page sits at the start of the heap. `alloc(n)` hands out the first run of
  `n` free pages. `dealloc(ptr)` frees a run up to its `Last` marker.
  `zero_alloc` also zero-fills the pages. Module `Page` models the code as
  written. Module `PageIntended` holds the corrected definitions for the four
  defects listed under Findings.
- **The two global-allocator facades** (`kernel/allocator.rs` and
  `src/allocator.rs`). Each rounds a request up to whole pages and forwards
  it to the page allocator as written. These are modules `KernelAllocator`
  and `InstalledAllocator`, so the panics and NULL answers of `Page`'s
  `alloc` and `dealloc` are theirs too.
- **The Sv32 page table** (`kernel/page_table.rs`; section 4.3 of the RISC-V
  privileged architecture), in module `PageTable`. It covers entry encoding,
  `map` with on-demand level-0 tables, `map_kernel_range` identity mapping,
  `unmap`, and the satp word written at boot.
- **The two cooperative schedulers**:
  - The queue-based `Scheduler` of `src/scheduler.rs`, over the process
    records of `kernel/process.rs`. These are modules `Processes` and
    `Scheduler`. The model includes the boot scenario of `src/main.rs`, in
    which processes A and B each yield three times and then exit.
  - The older fixed-array `ProcessCreator` of `src/process.rs`, in module
    `ProcessCreator`.

Modelling choices:

- Machine integers are unbounded naturals. Subtraction underflows are
  modelled as the debug-build overflow panic; see Left out for additive
  overflow and wrapping.
- Panics are the `Fail` branch of a `Result`, carrying a `Fault` that names
  the panic message.
- A context switch is an abstract `Switch(from, to)` event.
- The following become parameters:
  - the address of each kernel stack;
  - the page `zero_alloc(1)` returns to `map`;
  - the address of the idle routine.

Three points where the code's behaviour is easy to misread:

- **The resume path.** When the queue is empty and the previous process is
  still runnable, the resume arm of `yield_process` prints "Nothing in the
  process-queue to yield to, but previous still runnable"
  (src/scheduler.rs:131-133). That message shows it means to keep the
  process running. But the arm has already taken the previous process out,
  so the `unwrap` at src/scheduler.rs:143 panics (Finding 5). The completed
  behaviour is the model's `Yield`, which the rest of the model uses.
- **The switch count.** The A/B scenario of src/main.rs performs 9 context
  switches (`Scheduler.DemoTrace`), counting the boot thread's own yield to
  A. The run ends with the idle process panicking with "Kernel Idle"
  (src/scheduler.rs:88-90); it does not run on idly.
- **The panic message.** The `create_process` message says the kernel
  supports 8 processes, but it has two slots (`ProcessCreator.MAX_PROCESSES`).

## Model

| member | source | states |
|---|---|---|
| Common.Pow2PageOrder | kernel/arch/riscv32/mod.rs:8-9 | 2^PAGE_ORDER is PAGE_SIZE: the page order 12 and the page size 4096 agree |
| Page.AlignVal | kernel/page.rs:10-13 | the result is a multiple of 2^order, at least `val`, and less than `val + 2^order` (the least such multiple) |
| Page.AlignValIdempotent | kernel/page.rs:10-13 | an aligned value is returned unchanged |
| Page.AddFlag | kernel/page.rs:50-65 | or-ing a state bit sets exactly that bit's predicate and keeps the other; re-adding Taken changes nothing |
| Page.New | kernel/page.rs:68-74 | the uninitialised allocator has no pages and is consistent |
| Page.Init | kernel/page.rs:76-96 | fails (subtraction underflow) exactly when heap_end < heap_start. Otherwise: the page count is the floor of size/PAGE_SIZE; alloc_start is page aligned, past the descriptors, and less than a page beyond them; only descriptors at multiples of PAGE_SIZE are cleared, and every other byte keeps its prior value |
| Page.InitOnZeroedHeap | kernel/page.rs:76-96 | on zeroed memory every descriptor is free and well formed after `init` |
| Page.InitKeepsStaleDescriptor | kernel/page.rs:89-95 | a stale Taken byte at descriptor 1 survives `init` |
| Page.Scan | kernel/page.rs:99-116 | the scanning loop returns the lowest start of n free descriptors ending below the bound, or none exists |
| Page.MarkRun | kernel/page.rs:120-126 | for a run starting at index 1 or later: the run is marked Taken with Last on its final descriptor, the descriptor before the run also gets Taken, and nothing else changes |
| Page.Alloc | kernel/page.rs:98-130 | underflow panic iff n > page count (line 103) or the first fitting run starts at page 0 (line 108); otherwise NULL iff no run fits below `total - n`; otherwise the pointer is alloc_start + s·PAGE_SIZE for the first-fit start s ≥ 1, and the run is marked; n = 0 and n = total give NULL |
| Page.AllocChangesOnlyTheRun | kernel/page.rs:103-126 | a granted run starts at page 1 or later and the descriptor before it is already Taken, so only the run itself changes |
| Page.AllocMarksRun | kernel/page.rs:120-126 | on well-formed descriptors a granted run reads Taken…Taken, Taken+Last, and stays well formed |
| Page.AllocsDisjoint | kernel/page.rs:98-130 | two successive grants never overlap |
| Page.AllocKeepsTaken | kernel/page.rs:103-126 | `alloc` never frees a page: a Taken descriptor is still Taken afterwards |
| Page.AllocSeqKeepsTaken | kernel/page.rs:98-130 | no sequence of `alloc` calls frees a page |
| Page.AllocsDisjointAcross | kernel/page.rs:98-130 | a grant never overlaps any later grant, whatever allocations come between them |
| Page.StopIndex | kernel/page.rs:143-146 | the clearing loop stops at the first descriptor that is Last or not Taken, or at the end of the array |
| Page.ClearRange | kernel/page.rs:143-150 | exactly the descriptors lo..hi become Free |
| Page.Dealloc | kernel/page.rs:132-152 | underflow panic iff ptr < alloc_start; out-of-bounds panic iff the descriptor address is ≥ alloc_start; "not marked as last" panic iff the loop stops on a non-Last descriptor; on success exactly the run up to its Last marker is freed |
| Page.DeallocOfFreePagePanics | kernel/page.rs:143-148 | freeing a page whose descriptor is free panics "Page is not marked as last" |
| Page.AllocDeallocRoundTrip | kernel/page.rs:98-152 | dealloc of a granted pointer restores the allocator exactly |
| Page.DoubleFreePanics | kernel/page.rs:147-148 | freeing the same pointer twice panics on the second call |
| Page.ZeroFill | kernel/page.rs:160 | the n bytes from p become 0; all others are unchanged |
| Page.ZeroAlloc | kernel/page.rs:154-163 | same outcome as `alloc`, panics included; on a grant the n pages read 0 and no other byte changes; on NULL memory is untouched |
| PageIntended.Init | kernel/page.rs:76-96 | the corrected `init` frees every descriptor and computes the same page count and alloc_start as the code |
| PageIntended.InitStrideFinding | kernel/page.rs:89-95 | as written a stale byte stays Taken; the corrected `init` frees it |
| PageIntended.MarkExact | kernel/page.rs:120-126 | marks exactly the run: Taken, with Last at its end, and nothing else |
| PageIntended.Alloc | kernel/page.rs:98-130 | NULL iff no run of n free pages exists anywhere in the array; otherwise the first-fit run, marked exactly, and nothing is written below the heap |
| PageIntended.AllocPreservesInvariants | kernel/page.rs:120-126 | the corrected `alloc` keeps descriptors well formed and every run terminated by Last |
| PageIntended.AllocWholeHeap | kernel/page.rs:103-108 | on an all-free heap, a request for every page succeeds, starting at page 0 |
| PageIntended.ScanBoundFinding | kernel/page.rs:103 | as written `alloc(total)` on a free heap returns NULL and `alloc(total+1)` underflows; the corrected one grants the first and returns NULL for the second |
| PageIntended.RunAtZeroFinding | kernel/page.rs:107-108 | as written the first `alloc(1)` on a fresh heap of two or more pages panics on underflow; the corrected one grants page 0 and marks only it as Taken and Last |
| PageIntended.StopIndexInside | kernel/page.rs:143-146 | on terminated runs the clearing loop stops inside the array |
| PageIntended.Dealloc | kernel/page.rs:132-152 | out-of-bounds panic iff the pointer is below alloc_start or its index is ≥ the page count; never reads past the array on terminated runs; success agrees with the code |
| PageIntended.DeallocBoundFinding | kernel/page.rs:134-138 | on a 3-page heap, the pointer one page past the end passes the code's check and reads outside the array; the corrected check rejects it |
| PageIntended.AllocDeallocRoundTrip | kernel/page.rs:98-152 | the corrected alloc/dealloc pair is the identity |
| KernelAllocator.PageCount | kernel/allocator.rs:13 | the page count is the least number of pages holding `size` bytes (0 for size 0) |
| KernelAllocator.PageCountIsCeiling | kernel/allocator.rs:13 | that count equals ⌈size / PAGE_SIZE⌉ |
| KernelAllocator.Alloc | kernel/allocator.rs:12-15 | with n the rounded page count: underflow panic iff n exceeds the page count or the first fit starts at page 0; otherwise NULL iff no run of n free pages ends below `total - n`; otherwise the first-fit run (a page-aligned free run past page 0) covering `size` bytes with less than a page to spare, and the allocator afterwards has exactly that run marked as `alloc` marks it; a zero-sized layout, or one needing every page, gets NULL |
| KernelAllocator.Dealloc | kernel/allocator.rs:17-19 | the as-written page allocator's `dealloc` for the pointer, whatever the layout |
| KernelAllocator.AllocDeallocRoundTrip | kernel/allocator.rs:12-19 | alloc then dealloc with any layout restores the as-written page allocator |
| InstalledAllocator.New | src/allocator.rs:15-17 | no allocator reference is installed |
| InstalledAllocator.Init | src/allocator.rs:19-21 | afterwards a reference is installed |
| InstalledAllocator.Alloc | src/allocator.rs:25-28 | panics (unwrap of None) if nothing is installed; otherwise answers exactly like the kernel facade over the as-written page allocator, its panics included |
| InstalledAllocator.Dealloc | src/allocator.rs:30-32 | panics if nothing is installed; otherwise answers like the kernel facade over the as-written page allocator |
| InstalledAllocator.InstalledRoundTrip | src/allocator.rs:25-32 | after `init`, alloc then dealloc restores the as-written page allocator |
| InstalledAllocator.InitEnablesForwarding | src/allocator.rs:15-32 | before `init` both entry points panic; after it both agree with the kernel facade |
| PageTable.Vpn1 | kernel/page_table.rs:14-19 | the index is below 1024 |
| PageTable.Vpn0 | kernel/page_table.rs:21-26 | the index is below 1024 |
| PageTable.VpnSplit | kernel/page_table.rs:14-26 | vpn1 and vpn0 are the high and low halves of the page number, and va = vpn1·4 MiB + vpn0·4 KiB + offset |
| PageTable.SameSlotsIffSamePage | kernel/page_table.rs:14-26 | two addresses select the same slots iff they lie in the same page |
| PageTable.ToPpn | kernel/page_table.rs:42-45 | the PPN field has no bits below bit 10 and fits 32 bits |
| PageTable.PhysAddress | kernel/page_table.rs:83-85 | the address read from an entry is page aligned |
| PageTable.TableAt | kernel/page_table.rs:136 | the table pointer is page aligned and fits 32 bits |
| PageTable.SetValid | kernel/page_table.rs:140 | or-ing Valid into a flags word sets bit 0 and keeps every other bit of the caller's flags; flags that already carry Valid are unchanged |
| PageTable.PteRoundTrip | kernel/page_table.rs:139-140 | an entry written by `map` is a valid 32-bit word that reads back as the same physical address and flags |
| PageTable.BranchToRoundTrip | kernel/page_table.rs:132 | the level-1 entry for a new table is a valid branch that leads back to that table |
| PageTable.New | kernel/page_table.rs:104-108 | every entry of a new table is 0 and invalid |
| PageTable.Satp | src/main.rs:236-237 | the satp word has mode bit 1, ASID 0, and the root table's page number |
| PageTable.Map | kernel/page_table.rs:110-142 | panics iff va (first) or pa is misaligned; takes a page iff the level-1 entry was invalid; then installs a branch to it, changing no other root entry |
| PageTable.MapWritesEntry | kernel/page_table.rs:128-141 | after `map`, looking up va gives the new entry |
| PageTable.PteParity | kernel/page_table.rs:140 | every entry `map` writes is valid |
| PageTable.MapZeroesNewTable | kernel/page_table.rs:131 | a newly taken table is zero apart from the new entry |
| PageTable.MapFrame | kernel/page_table.rs:110-142 | with distinct tables and a usable new page, the mapping of every other page is unchanged |
| PageTable.MapKeepsTablesDistinct | kernel/page_table.rs:129-137 | level-0 tables stay distinct, and other usable pages stay usable |
| PageTable.MapReusesTable | kernel/page_table.rs:134-137 | a second mapping in the same 4 MiB region takes no page and leaves the root unchanged |
| PageTable.MapRangeStep | kernel/page_table.rs:167-173 | one loop iteration extends the identity-mapped range by a page and keeps everything else |
| PageTable.MapKernelRange | kernel/page_table.rs:157-174 | a misaligned start maps nothing; an overflowing or inverted range panics; otherwise, given distinct tables and fresh pages, every page from start up to the rounded end maps to itself with the flags, all other pages are untouched, and the tables stay distinct |
| PageTable.IdentityMapped | kernel/page_table.rs:168-171 | a page mapped by the range maps to its own address with the caller's flags |
| PageTable.BranchSlots | kernel/page_table.rs:145-151 | every listed slot lies below the bound it was collected up to |
| PageTable.BranchSlotsExact | kernel/page_table.rs:145-151 | the list up to index i holds exactly the valid branch entries below i, each once, in ascending order |
| PageTable.Unmap | kernel/page_table.rs:144-154 | every entry is cleared, and the tables handed to `dealloc` are those of the valid branch entries, in entry order |
| Processes.Words | kernel/process.rs:3-20 | a context is 14 words, ra first and sp second |
| Processes.DefaultContext | kernel/process.rs:3-20 | the default context is all zeros |
| Processes.DefaultProcess | kernel/process.rs:30-48 | the default process has pid 0, is Unused, and has a zero context |
| Scheduler.InfoFrom | src/scheduler.rs:27-35 | the snapshot carries the process's id, state and saved sp |
| Scheduler.New | src/scheduler.rs:47-55 | empty queue, ids from 1, nothing running or staged |
| Scheduler.InitProcess | src/scheduler.rs:103-113 | panics iff the stack top is not 16-byte aligned; otherwise sp = stack top and ra = entry, and every other word and field is unchanged |
| Scheduler.CreateIdleProcess | src/scheduler.rs:92-102 | pid 0, KernelReserved, entering the idle routine on its own stack; panics iff the stack top is misaligned |
| Scheduler.Init | src/scheduler.rs:58-61 | installs an idle process as the running one and changes nothing else |
| Scheduler.InitAligned | src/scheduler.rs:58-61 | on an aligned stack `init` succeeds with exactly that change |
| Scheduler.ScheduleProcess | src/scheduler.rs:70-86 | u32 overflow panic iff the counter is at its maximum; alignment panic characterised; otherwise a Runnable process with the next id, sp and ra joins the back of the queue, the counter advances, and the snapshot describes it |
| Scheduler.ScheduleAligned | src/scheduler.rs:70-86 | on an aligned stack below the id limit, the exact resulting scheduler and snapshot |
| Scheduler.ScheduleAddsOne | src/scheduler.rs:70-86 | scheduling adds exactly one held process, with the new id |
| Scheduler.Waiting | src/scheduler.rs:122-126 | the line is the queue, followed by at most the staged process |
| Scheduler.YieldAsWritten | src/scheduler.rs:115-145 | panics before `init` iff nothing runs; panics on unwrap of None iff nothing waits and the yielding process is still Runnable |
| Scheduler.Yield | src/scheduler.rs:115-145 | with the resume path completed, it panics only before `init` (or on a misaligned idle stack); otherwise something runs and the id counter is unchanged |
| Scheduler.YieldAsWrittenAgrees | src/scheduler.rs:128-145 | the code and the completed yield agree everywhere except on the resume path, where the latter keeps the process running |
| Scheduler.LoneResume | src/scheduler.rs:131-145 | a lone runnable process: the code panics, the completed yield keeps it running |
| Scheduler.ResumeFinding | src/scheduler.rs:131-145 | after `init`, one `schedule_process` and the boot yield, A's yield panics as written and resumes A when completed |
| Scheduler.YieldIsFifo | src/scheduler.rs:122-139 | the oldest waiting process runs next; the yielder rejoins the back iff it is Runnable; with nobody waiting a Runnable process stays, and any other gives way to a fresh idle process |
| Scheduler.IdleFirstYield | src/scheduler.rs:122-139 | the idle process yields to the head of the queue and is staged |
| Scheduler.YieldHeld | src/scheduler.rs:122-139 | a yield keeps every process it holds except a staged, non-runnable one |
| Scheduler.YieldConserves | src/scheduler.rs:122-139 | a yield neither loses nor invents a runnable process (per-id counts are equal), and user processes can only be dropped |
| Scheduler.Exit | src/scheduler.rs:63-69 | panics "no current process" iff nothing runs; on success it switches away from the exiting process |
| Scheduler.ExitFailures | src/scheduler.rs:63-69 | the only other panic of `exit_process` is the misaligned stack of a fresh idle process (src/scheduler.rs:92-113) |
| Scheduler.ExitNeverResumes | src/scheduler.rs:63-69 | exit as written (a yield of the process after marking it Exited) equals the model's `Exit`: the resume path is never reached |
| Scheduler.ExitConserves | src/scheduler.rs:63-69 | exit removes exactly the exiting process from the runnable ones |
| Scheduler.ExitedNeverRequeued | src/scheduler.rs:122-126 | after exit, no runnable process and no queued process carries the exited id |
| Scheduler.InitEstablishesInv | src/scheduler.rs:58-61 | `init` establishes the invariant: only runnable processes queue, ids are below the counter, and no user id is held twice |
| Scheduler.ScheduleKeepsInv | src/scheduler.rs:70-86 | `schedule_process` keeps the invariant |
| Scheduler.WaitingRunnable | src/scheduler.rs:122-126 | under the invariant every waiting process is a Runnable member |
| Scheduler.YieldNumbered | src/scheduler.rs:128-139 | a yield keeps every held process numbered |
| Scheduler.YieldKeepsInv | src/scheduler.rs:115-139 | a yield keeps the invariant |
| Scheduler.MarkExitedKeepsInv | src/scheduler.rs:67 | marking the running process Exited keeps the invariant |
| Scheduler.ExitKeepsInv | src/scheduler.rs:63-69 | `exit_process` keeps the invariant |
| Scheduler.DemoSetup | src/main.rs:218-220 | after `init` and scheduling A then B, A (pid 1) and B (pid 2) wait in that order behind the idle process |
| Scheduler.DemoBoot | src/main.rs:202-223 | the boot yield switches 0→1: A runs, B waits, the boot thread is staged |
| Scheduler.BootKeepsInv | src/main.rs:202-223 | the invariant holds after boot |
| Scheduler.RunHandOff | src/main.rs:361-381 | with the queue empty, a step of the running process hands over to the staged one by a yield or an exit |
| Scheduler.DemoFollowsCode | src/scheduler.rs:115-145 | the boot yield, A's first yield and every hand-off yield of the demonstration find a process waiting, so the code's yield takes the same step as the completed one |
| Scheduler.RunLastExit | src/scheduler.rs:88-90 | when the last process exits, the idle process takes over and panics "Kernel Idle" |
| Scheduler.RunFirst | src/main.rs:361-367 | A's first yield switches 1→2 and drops the boot thread |
| Scheduler.DemoRunEnd | src/main.rs:368-380 | A exits to B, B exits to idle, and idle panics |
| Scheduler.DemoRunB3 | src/main.rs:372-381 | B's third yield onwards |
| Scheduler.DemoRunA3 | src/main.rs:361-370 | A's third yield onwards |
| Scheduler.DemoRunB2 | src/main.rs:372-381 | B's second yield onwards |
| Scheduler.DemoRunA2 | src/main.rs:361-370 | A's second yield onwards |
| Scheduler.DemoRunB1 | src/main.rs:372-381 | B's first yield onwards |
| Scheduler.DemoRun | src/main.rs:361-381 | from A's first yield: seven alternating switches, then 2→0, then the idle panic |
| Scheduler.DemoTrace | src/main.rs:198-223 | the whole scenario: 9 switches 0→1, 1→2, 2→1, 1→2, 2→1, 1→2, 2→1, 1→2, 2→0, ending in "Kernel Idle", for any step budget of at least 9 |
| ProcessCreator.Blank | src/process.rs:25-34 | a process with the given id, state and stack, and every saved word 0 |
| ProcessCreator.New | src/process.rs:73-100 | two Unused slots with id 0, a Dead idle process, nothing running, ids from 1 |
| ProcessCreator.InitProcess | src/process.rs:127-137 | panics iff the stack top is misaligned; otherwise sp and ra are set and every other word is kept |
| ProcessCreator.Init | src/process.rs:103-106 | the idle process gets ra 0xFFFFFFFF and its stack top, and runs |
| ProcessCreator.LastUnused | src/process.rs:109-114 | the highest-index Unused slot, or none iff every slot is used |
| ProcessCreator.FindUnused | src/process.rs:109-114 | the forward scan in which later Unused slots replace earlier ones finds the last Unused slot |
| ProcessCreator.CreateProcess | src/process.rs:108-125 | panics iff no slot is Unused; u32 overflow and alignment panics characterised; otherwise the last Unused slot becomes Runnable with the next id, sp and ra, other slots are unchanged, and the snapshot describes it |
| ProcessCreator.FirstEligible | src/process.rs:145-150 | the lowest-index Runnable slot with a different id, or none iff there is no such slot |
| ProcessCreator.Yield | src/process.rs:139-162 | panics on unwrap iff nothing runs yet and a slot is eligible; otherwise the slots, the id counter and the idle process stay as they were, so only the running reference may change; and with no eligible slot nothing changes |
| ProcessCreator.YieldPicksFirstEligible | src/process.rs:145-158 | a switch goes to the first eligible slot from the running id; staying means no slot is eligible |
| ProcessCreator.NewEstablishesInv | src/process.rs:73-106 | new and init establish the invariant: Unused slots have id 0, others distinct ids in [1, counter), and the running reference points at a used slot |
| ProcessCreator.CreateKeepsInv | src/process.rs:108-125 | `create_process` keeps the invariant and never touches a used slot |
| ProcessCreator.YieldKeepsInv | src/process.rs:139-162 | `yield_control` keeps the invariant |
| ProcessCreator.CreatorDemo | src/process.rs:108-162 | the slots fill from the top (pids 1 then 2), a third create panics, and yields switch 0→2, 2→1, 1→2 |

## Left out

- Printing (`print_page_allocations`, `print_entries`, every `println!`) and the `Display` impls: output only.
- The `switch_context` assembly: it is register save and restore, so the model has only the abstract `Switch` event.
- Spinlocks: the kernel runs on one hart, and every operation is modelled as atomic.
- Kernel-stack allocation (`Box::new`, or the array inside a slot): the stack's base address is a parameter, and an allocation failure is not modelled.
- Additive `usize` overflow near 2^32 in the page allocator (`heap_start + total`, `alloc_start + s * PAGE_SIZE`) is not modelled. Subtraction underflows that small inputs reach are modelled as the debug-build overflow panic: `heap_end - heap_start` in `init`, `total - n` and `i - n + 1` in `alloc`, `page - alloc_start` in `dealloc`, `aligned_end - start` in `map_kernel_range`.
- Release-build (wrapping) arithmetic is not modelled. With wrapping, line 108 of kernel/page.rs would compute the right start for a run at page 0, and the marking loop (lines 120-125) would then write Taken into the byte just below heap_start.
- Page.Init: bytes written outside the descriptor array (at page strides past it) are not given contents.
- PageTable.Map: requires `flags < 0x400`. Wider flags would be or-ed into the PPN field; the code does not guard against this and only the kernel's flag constants are used.
- PageTable.Map: the root table is kept apart from the memory that holds level-0 tables, and the page from `zero_alloc(1)` is a parameter; a NULL page is not rejected, as in the code.
- PageTable.Map: the page request to `zero_alloc(1)` is assumed to succeed. By `Page.Alloc`, the first such request on a fresh heap panics in a build with overflow checks (see Findings), so the model does not follow that panic into `map` or `map_kernel_range`.
- Page.Dealloc: when the clearing loop runs past the descriptor array, the code reads and clears whatever bytes lie there (padding, or the first allocated pages). The model stops with `OutsideDescriptors` instead; `PageIntended.Dealloc` shows this never happens under the corrected bound on terminated runs.
- InstalledAllocator: src/allocator.rs imports the page allocator of src/page.rs, which is not part of this model; that `PageAllocator` is taken to be the one of kernel/page.rs.
- PageTable.Unmap: returns the pointers it would hand to `dealloc`, in order, instead of calling the page allocator.
- Scheduler.Run: bounded by a step budget (`fuel`); `DemoTrace` holds for every budget of at least 9.
- Scheduler.Yield: every freshly created idle process is given the same stack address (`idleStack`).
- Scheduler.ScheduleProcess: the u32 counter's wrap is the debug-build overflow panic, with no wrap-around.
- ProcessCreator.CreateProcess: the same for its counter.
- `reserve(MAX_PROCESSES)` in `Scheduler::init` has no observable effect and is not modelled.
- `VirtualAddress::with_offset` and `PhysicalAddress::with_offset` are written out as additions.

## Findings

| source | as written | input that shows it | evidently intended | confidence | as-written member | corrected member |
|---|---|---|---|---|---|---|
| kernel/page.rs:89-95 | the clearing loop writes a descriptor every PAGE_SIZE bytes (`heap_start + i * PAGE_SIZE`) | a 2-page heap whose descriptor 1 holds a stale Taken byte keeps that page taken forever | clear every descriptor (`heap_start + i`) | not executed | PageIntended.InitStrideFinding | PageIntended.Init |
| kernel/page.rs:103 | the scan visits indices `0 .. total - n` only, and `total - n` underflows when n > total | `alloc(total)` on an all-free heap returns NULL, and `alloc(total + 1)` panics | scan every index and return NULL for an oversized request | not executed | PageIntended.ScanBoundFinding | PageIntended.AllocWholeHeap |
| kernel/page.rs:107-108 | the start of a run ending at index i is computed as `i - nr_of_pages + 1`, which underflows when the run starts at page 0 | the first `alloc(1)` on a fresh heap of two or more pages panics, and so does every allocation whose first fit is page 0 | compute `i + 1 - nr_of_pages` and grant page 0 | not executed | PageIntended.RunAtZeroFinding | PageIntended.Alloc |
| kernel/page.rs:134-138 | the bounds check compares the descriptor address with alloc_start instead of the end of the descriptors | on a 3-page heap, `dealloc(alloc_start + 3 * PAGE_SIZE)` passes and reads past the descriptor array | reject indices at or past the page count | not executed | PageIntended.DeallocBoundFinding | PageIntended.Dealloc |
| src/scheduler.rs:131-145 | the resume arm takes the process back out of `previously_running`, and the switch message then unwraps that now-empty slot | with one process scheduled, its first yield (nothing queued, still Runnable) panics | keep the runnable process running | not executed | Scheduler.ResumeFinding | Scheduler.LoneResume |

=== FILE: allocator.dfy ===
/** The global-allocator facade of kernel/allocator.rs: every request is
    rounded up to whole pages and forwarded to the page allocator as written
    (module Page), so its panics and its NULL answers are the facade's. */
module KernelAllocator {
  import opened Common
  import opened Page

  /** `core::alloc::Layout`; only `size` is read. */
  datatype Layout = Layout(size: nat, align: nat)

  /** `align_val(size, PAGE_ORDER) / PAGE_SIZE`: the least number of whole
      pages holding `size` bytes. */
  function PageCount(size: nat): (n: nat)
    ensures n * PAGE_SIZE >= size
    ensures size > 0 ==> n >= 1 && (n - 1) * PAGE_SIZE < size
    ensures size == 0 ==> n == 0
  {
    Pow2PageOrder();
    var r := AlignVal(size, PAGE_ORDER);
    MulDivExact(r / PAGE_SIZE, PAGE_SIZE);
    r / PAGE_SIZE
  }

  /** `PageCount` is the ceiling of size / PAGE_SIZE. */
  lemma PageCountIsCeiling(size: nat)
    ensures PageCount(size) == (size + PAGE_SIZE - 1) / PAGE_SIZE
  {
    var n := PageCount(size);
    var c := (size + PAGE_SIZE - 1) / PAGE_SIZE;
    assert c * PAGE_SIZE <= size + PAGE_SIZE - 1 < (c + 1) * PAGE_SIZE;
  }

  /** `GlobalAlloc::alloc`: `alloc` of the page allocator for the number of
      whole pages `size` bytes need, whatever the layout's alignment. It
      inherits the page allocator's underflow panics (a request for more pages
      than exist, or a first fit at page 0) and its scan bound (a request for
      every page gets NULL). A zero-sized request asks for zero pages and gets
      NULL. */
  function Alloc(heap: PageAllocator, layout: Layout): (r: Result<Grant>)
    requires heap.Valid()
    ensures var n := PageCount(layout.size);
      r.Fail? <==> heap.totalPages < n || FirstFit(heap.descs, n, heap.totalPages - n, 0)
    ensures r.Fail? ==> r.fault == ArithmeticOverflow
    ensures r.Ok? ==> var n := PageCount(layout.size);
      r.value.ptr == NULL <==> NoFit(heap.descs, n, heap.totalPages - n)
    ensures layout.size == 0 || PageCount(layout.size) == heap.totalPages ==> r == Ok(Grant(NULL, heap))
    ensures r.Ok? && r.value.ptr != NULL ==>
      layout.size >= 1 && layout.size <= PageCount(layout.size) * PAGE_SIZE < layout.size + PAGE_SIZE
    ensures r.Ok? && r.value.ptr != NULL ==>
      && r.value.ptr > heap.allocStart
      && var n := PageCount(layout.size);
      && var s: nat := (r.value.ptr - heap.allocStart) / PAGE_SIZE;
      && r.value.ptr == heap.allocStart + s * PAGE_SIZE
      && FreeRun(heap.descs, s, n)
      && FirstFit(heap.descs, n, heap.totalPages - n, s)
      && r.value.next == heap.(descs := MarkRun(heap.descs, s, n))
  {
    Page.Alloc(heap, PageCount(layout.size))
  }

  /** `GlobalAlloc::dealloc`: the page allocator's `dealloc` for the pointer;
      the layout plays no part. */
  function Dealloc(heap: PageAllocator, ptr: nat, layout: Layout): (r: Result<PageAllocator>)
    requires heap.Valid()
    ensures r == Page.Dealloc(heap, ptr)
  {
    Page.Dealloc(heap, ptr)
  }

  /** A block obtained from `alloc` and given back with `dealloc` leaves the
      page allocator as it was, for every layout. */
  lemma AllocDeallocRoundTrip(heap: PageAllocator, layout: Layout)
    requires heap.Valid() && WellFormed(heap.descs)
    requires Alloc(heap, layout).Ok? && Alloc(heap, layout).value.ptr != NULL
    ensures var g := Alloc(heap, layout).value;
      Dealloc(g.next, g.ptr, layout) == Ok(heap)
  {
    Page.AllocDeallocRoundTrip(heap, PageCount(layout.size));
  }
}

/** The earlier facade of src/allocator.rs: the same rounding, reached through
    an optional reference to the page allocator that `init` installs. The
    referenced page allocator is passed to each call; the model records only
    whether a reference is installed. */
module InstalledAllocator {
  import opened Common
  import opened Page
  import KernelAllocator

  datatype Allocator = Allocator(installed: bool)

  /** `KernelAllocator::new`: no backing allocator yet. */
  function New(): (k: Allocator)
    ensures !k.installed
  {
    Allocator(false)
  }

  /** `KernelAllocator::init`: installs the page allocator reference. */
  function Init(k: Allocator): (k': Allocator)
    ensures k'.installed
  {
    Allocator(true)
  }

  /** `alloc`: unwraps the reference, then behaves as the kernel facade. */
  function Alloc(k: Allocator, heap: PageAllocator, layout: KernelAllocator.Layout): (r: Result<Grant>)
    requires heap.Valid()
    ensures !k.installed ==> r == Fail(UnwrapNone)
    ensures k.installed ==> r == KernelAllocator.Alloc(heap, layout)
  {
    if !k.installed then Fail(UnwrapNone)
    else KernelAllocator.Alloc(heap, layout)
  }

  /** `dealloc`: unwraps the reference and forwards the pointer. */
  function Dealloc(k: Allocator, heap: PageAllocator, ptr: nat, layout: KernelAllocator.Layout): (r: Result<PageAllocator>)
    requires heap.Valid()
    ensures !k.installed ==> r == Fail(UnwrapNone)
    ensures k.installed ==> r == KernelAllocator.Dealloc(heap, ptr, layout)
  {
    if !k.installed then Fail(UnwrapNone)
    else KernelAllocator.Dealloc(heap, ptr, layout)
  }

  /** Once installed, a block obtained from `alloc` and given back with
      `dealloc` leaves the page allocator as it was. */
  lemma InstalledRoundTrip(heap: PageAllocator, layout: KernelAllocator.Layout)
    requires heap.Valid() && WellFormed(heap.descs)
    requires Alloc(Init(New()), heap, layout).Ok? && Alloc(Init(New()), heap, layout).value.ptr != NULL
    ensures var g := Alloc(Init(New()), heap, layout).value;
      Dealloc(Init(New()), g.next, g.ptr, layout) == Ok(heap)
  {
    KernelAllocator.AllocDeallocRoundTrip(heap, layout);
  }

  /** Before `init` every request panics; after it, both entry points agree
      with the kernel facade. */
  lemma InitEnablesForwarding(heap: PageAllocator, layout: KernelAllocator.Layout, ptr: nat)
    requires heap.Valid()
    ensures Alloc(New(), heap, layout) == Fail(UnwrapNone)
    ensures Dealloc(New(), heap, ptr, layout) == Fail(UnwrapNone)
    ensures Alloc(Init(New()), heap, layout) == KernelAllocator.Alloc(heap, layout)
    ensures Dealloc(Init(New()), heap, ptr, layout) == KernelAllocator.Dealloc(heap, ptr, layout)
  {
  }
}

=== FILE: common.dfy ===
/** Constants of the 32-bit RISC-V target and the panic outcomes every kernel
    component shares.

    A `usize` of the kernel is modelled as an unbounded natural number. Rust's
    checked arithmetic (the default build profile) turns an unsigned subtraction
    that would go below zero into a panic; the model reports that as
    `ArithmeticOverflow` at each subtraction small inputs can reach. */
module Common {

  /** log2 of the page size (kernel/arch/riscv32/mod.rs). */
  const PAGE_ORDER: nat := 12
  const PAGE_SIZE: nat := 4096

  /** The largest `u32`, the type of process ids. */
  const U32_MAX: nat := 0xFFFF_FFFF

  /** The null pointer returned by the page allocator on exhaustion. */
  const NULL: nat := 0

  /** Every way the modelled kernel code stops with a panic, or performs an
      access the model cannot give a meaning to. */
  datatype Fault =
    | ArithmeticOverflow      // an unsigned subtraction went below zero
    | PageOutOfBounds         // "Page .. is not within the bounds of the allocator"
    | PageNotLast             // "Page is not marked as last"
    | OutsideDescriptors      // a descriptor access past the end of the descriptor array
    | VirtNotAligned          // "virt_address is not aligned"
    | PhysNotAligned          // "phys_address is not aligned"
    | StackNotAligned         // "stack_pointer is not 16-byte aligned"
    | UnwrapNone              // `Option::unwrap` on `None`
    | NoCurrentOnExit         // "Exiting a unexisting process"
    | NoCurrentOnYield        // "Cannot yield without having inited the sheduler"
    | NoUnusedSlot            // "This kernel only supports 8 processes!"
    | KernelIdle              // "Kernel Idle": the idle process has nothing to run

  /** The outcome of an operation that may panic (or stray outside the modelled memory). */
  datatype Result<+T> = Ok(value: T) | Fail(fault: Fault)
  {
    /** This outcome is the panic `f`. */
    predicate Panics(f: Fault)
    {
      Fail? && fault == f
    }
  }

  datatype Option<+T> = None | Some(value: T)

  function Pow2(k: nat): (r: nat)
    ensures r >= 1
  {
    if k == 0 then 1 else 2 * Pow2(k - 1)
  }

  /** A multiple of p that lies in [0, p) is zero. */
  lemma SmallMultiple(k: int, p: nat)
    requires p >= 1 && 0 <= k * p < p
    ensures k == 0
  {
  }

  /** Division is determined by any quotient/remainder pair. */
  lemma DivUnique(a: int, d: int, q: int, r: int)
    requires d > 0 && a == q * d + r && 0 <= r < d
    ensures a / d == q && a % d == r
  {
    var k := a / d - q;
    assert k * d == r - a % d by {
      assert a == (a / d) * d + a % d;
      assert (a / d) * d - q * d == k * d;
    }
  }

  lemma MulDivExact(q: nat, p: nat)
    requires p >= 1
    ensures (q * p) % p == 0 && (q * p) / p == q
  {
    var x := q * p;
    var k := x / p;
    assert x == k * p + x % p;
    assert (q - k) * p == x % p;
    SmallMultiple(q - k, p);
  }

  lemma MulMonotone(a: nat, b: nat, p: nat)
    requires a <= b
    ensures a * p <= b * p
  {
  }

  lemma Pow2PageOrder()
    ensures Pow2(PAGE_ORDER) == PAGE_SIZE
  {
    assert Pow2(4) == 16;
    assert Pow2(8) == 256;
  }
}

=== FILE: page.dfy ===
/** The physical page allocator of kernel/page.rs, modelled as written.

    One flag byte per heap page (a page descriptor) sits in a prefix of the
    heap itself; the descriptors are modelled as a `seq<bv8>` indexed by page
    number. Reads and writes that the source performs outside that array are
    not given contents: they surface as `OutsideDescriptors`. */
module Page {
  import opened Common

  // ---------------------------------------------------------------------------
  // align_val

  /** Rounds `val` up to the next multiple of 2^order: `(val + m) & !m` with
      `m = 2^order - 1`, the mask written as rounding down. */
  function AlignVal(val: nat, order: nat): (r: nat)
    ensures r % Pow2(order) == 0
    ensures val <= r < val + Pow2(order)
  {
    var p := Pow2(order);
    var q := (val + (p - 1)) / p;
    MulDivExact(q, p);
    q * p
  }

  /** An already aligned value is returned unchanged. */
  lemma AlignValIdempotent(val: nat, order: nat)
    requires val % Pow2(order) == 0
    ensures AlignVal(val, order) == val
  {
    var p := Pow2(order);
    var qv := val / p;
    assert val == qv * p;
    DivUnique(val + (p - 1), p, qv, p - 1);
  }

  // ---------------------------------------------------------------------------
  // Page descriptors

  const FREE: bv8 := 0
  const TAKEN: bv8 := 1
  const LAST: bv8 := 2

  predicate IsTaken(d: bv8) { d & TAKEN != 0 }
  predicate IsLast(d: bv8) { d & LAST != 0 }
  predicate IsFree(d: bv8) { !IsTaken(d) }

  /** `PageDescriptor::add_flag`: ORs one state bit into the byte. */
  function AddFlag(d: bv8, flag: bv8): (r: bv8)
    requires flag == TAKEN || flag == LAST
    ensures IsTaken(r) <==> IsTaken(d) || flag == TAKEN
    ensures IsLast(r) <==> IsLast(d) || flag == LAST
    ensures IsTaken(d) && flag == TAKEN ==> r == d
  {
    d | flag
  }

  /** Every descriptor byte is one of the three states the allocator writes:
      free (0), taken (1) or taken and last (3). */
  ghost predicate WellFormed(d: seq<bv8>)
  {
    forall j :: 0 <= j < |d| ==> d[j] == FREE || d[j] == TAKEN || d[j] == TAKEN | LAST
  }

  // ---------------------------------------------------------------------------
  // Allocator state

  datatype PageAllocator = PageAllocator(heapStart: nat, allocStart: nat, totalPages: nat, descs: seq<bv8>)
  {
    /** One descriptor per page, and the descriptor array ends at or below the
        first allocatable address. */
    ghost predicate Valid()
    {
      |descs| == totalPages && heapStart + totalPages <= allocStart
    }
  }

  /** The result of `alloc`: the returned pointer (NULL on exhaustion) and the
      allocator afterwards. */
  datatype Grant = Grant(ptr: nat, next: PageAllocator)

  /** `PageAllocator::new`: the zeroed, not yet initialised allocator. */
  function New(): (a: PageAllocator)
    ensures a.Valid() && a.totalPages == 0
  {
    PageAllocator(0, 0, 0, [])
  }

  /** `init`. `prior` is what the first `total_num_pages` bytes of the heap held
      before the call. The clearing loop steps by PAGE_SIZE bytes, so only
      descriptors whose index is a multiple of PAGE_SIZE are written. */
  function Init(heapStart: nat, heapEnd: nat, prior: seq<bv8>): (r: Result<PageAllocator>)
    requires heapStart <= heapEnd ==> |prior| == (heapEnd - heapStart) / PAGE_SIZE
    ensures r.Fail? <==> heapEnd < heapStart
    ensures r.Fail? ==> r.fault == ArithmeticOverflow
    ensures r.Ok? ==> r.value.Valid() && r.value.heapStart == heapStart
    ensures r.Ok? ==> r.value.totalPages * PAGE_SIZE <= heapEnd - heapStart < (r.value.totalPages + 1) * PAGE_SIZE
    ensures r.Ok? ==> r.value.allocStart % PAGE_SIZE == 0
    ensures r.Ok? ==> heapStart + r.value.totalPages <= r.value.allocStart < heapStart + r.value.totalPages + PAGE_SIZE
    ensures r.Ok? ==> forall j :: 0 <= j < |prior| && j % PAGE_SIZE == 0 ==> r.value.descs[j] == FREE
    ensures r.Ok? ==> forall j :: 0 <= j < |prior| && j % PAGE_SIZE != 0 ==> r.value.descs[j] == prior[j]
  {
    if heapEnd < heapStart then Fail(ArithmeticOverflow)
    else
      var total := (heapEnd - heapStart) / PAGE_SIZE;
      Pow2PageOrder();
      var allocStart := AlignVal(heapStart + total, PAGE_ORDER);
      Ok(PageAllocator(heapStart, allocStart, total,
        seq(total, j requires 0 <= j < total => if j % PAGE_SIZE == 0 then FREE else prior[j])))
  }

  /** On memory that was already zero, `init` leaves every descriptor free. */
  lemma InitOnZeroedHeap(heapStart: nat, heapEnd: nat, prior: seq<bv8>)
    requires heapStart <= heapEnd && |prior| == (heapEnd - heapStart) / PAGE_SIZE
    requires forall j :: 0 <= j < |prior| ==> prior[j] == FREE
    ensures Init(heapStart, heapEnd, prior).Ok?
    ensures forall j :: 0 <= j < |prior| ==> Init(heapStart, heapEnd, prior).value.descs[j] == FREE
    ensures WellFormed(Init(heapStart, heapEnd, prior).value.descs)
  {
  }

  /** A stale `Taken` byte at descriptor 1 survives `init`: the heap then has a
      page that no `alloc` will ever hand out. */
  lemma InitKeepsStaleDescriptor()
    ensures Init(0, 2 * PAGE_SIZE, [TAKEN, TAKEN]).Ok?
    ensures IsTaken(Init(0, 2 * PAGE_SIZE, [TAKEN, TAKEN]).value.descs[1])
  {
    var r := Init(0, 2 * PAGE_SIZE, [TAKEN, TAKEN]);
    assert 1 % PAGE_SIZE != 0;
    assert r.value.descs[1] == TAKEN;
  }

  // ---------------------------------------------------------------------------
  // alloc: the first-fit scan

  /** Descriptors s .. s+n-1 exist and are all free. */
  ghost predicate FreeRun(d: seq<bv8>, s: nat, n: nat)
  {
    s + n <= |d| && forall j :: s <= j < s + n ==> IsFree(d[j])
  }

  /** A start the scan of `alloc` can report: n >= 1 free descriptors from s
      whose run ends below `limit` (the scan only visits indices < limit). */
  ghost predicate Fits(d: seq<bv8>, n: nat, limit: nat, s: nat)
  {
    1 <= n && s + n <= limit && FreeRun(d, s, n)
  }

  /** s is the lowest start that fits. */
  ghost predicate FirstFit(d: seq<bv8>, n: nat, limit: nat, s: nat)
  {
    Fits(d, n, limit, s) && forall t: nat :: t < s ==> !Fits(d, n, limit, t)
  }

  /** No start fits at all. */
  ghost predicate NoFit(d: seq<bv8>, n: nat, limit: nat)
  {
    forall t: nat :: !Fits(d, n, limit, t)
  }

  /** The scanning loop of `alloc` from index `i` on, with `count` free
      descriptors seen since the last taken one. It reports the start of the
      first run of `n` free descriptors that ends below `limit`. */
  function Scan(d: seq<bv8>, n: nat, limit: nat, i: nat, count: nat): (r: Option<nat>)
    requires limit <= |d| && i <= limit && count <= i
    requires n == 0 || count < n
    requires forall j :: i - count <= j < i ==> IsFree(d[j])
    requires count < i ==> IsTaken(d[i - count - 1])
    requires forall t: nat :: t + n <= i ==> !Fits(d, n, limit, t)
    ensures r.Some? ==> FirstFit(d, n, limit, r.value)
    ensures r.None? ==> NoFit(d, n, limit)
    decreases limit - i
  {
    if i == limit then None
    else if IsFree(d[i]) then
      if count + 1 == n then Some(i + 1 - n)
      else
        assert forall t: nat :: t + n == i + 1 && 1 <= n ==> !FreeRun(d, t, n) by {
          forall t: nat | t + n == i + 1 && 1 <= n
            ensures !FreeRun(d, t, n)
          {
            if count < i {
              assert t <= i - count - 1 < t + n;
            }
          }
        }
        Scan(d, n, limit, i + 1, count + 1)
    else
      assert forall t: nat :: t + n == i + 1 && 1 <= n ==> !FreeRun(d, t, n) by {
        forall t: nat | t + n == i + 1 && 1 <= n
          ensures !FreeRun(d, t, n)
        {
          assert t <= i < t + n;
        }
      }
      Scan(d, n, limit, i + 1, 0)
  }

  /** The descriptor writes of the marking step: `Last` on the final
      descriptor of the run, then `Taken` on the n+1 descriptors that start one
      before the run. The run never starts at index 0 here: there the start
      computation underflows first. */
  function MarkRun(d: seq<bv8>, s: nat, n: nat): (d': seq<bv8>)
    requires 1 <= s && 1 <= n && s + n <= |d|
    ensures |d'| == |d|
    ensures forall j :: 0 <= j < |d| && (j + 1 < s || s + n <= j) ==> d'[j] == d[j]
    ensures forall j :: s <= j < s + n ==> IsTaken(d'[j]) && (IsLast(d'[j]) <==> IsLast(d[j]) || j == s + n - 1)
    ensures d'[s - 1] == AddFlag(d[s - 1], TAKEN)
  {
    seq(|d|, j requires 0 <= j < |d| =>
      if j == s + n - 1 then AddFlag(AddFlag(d[j], LAST), TAKEN)
      else if s <= j + 1 && j < s + n then AddFlag(d[j], TAKEN)
      else d[j])
  }

  /** `alloc(n)`: scans indices 0 .. total_num_pages - n, which panics on
      underflow when n exceeds the page count, and marks the first fitting run.
      The start of a run ending at index i is computed as `i - n + 1`, which
      underflows (and panics) when the run starts at index 0. */
  function Alloc(a: PageAllocator, n: nat): (r: Result<Grant>)
    requires a.Valid()
    ensures r.Fail? <==> a.totalPages < n || FirstFit(a.descs, n, a.totalPages - n, 0)
    ensures r.Fail? ==> r.fault == ArithmeticOverflow
    ensures r.Ok? ==> (r.value.ptr == NULL <==> NoFit(a.descs, n, a.totalPages - n))
    ensures r.Ok? && r.value.ptr == NULL ==> r.value.next == a
    ensures r.Ok? && r.value.ptr != NULL ==>
      r.value.ptr >= a.allocStart &&
      var s: nat := (r.value.ptr - a.allocStart) / PAGE_SIZE;
      && 1 <= s
      && r.value.ptr == a.allocStart + s * PAGE_SIZE
      && FirstFit(a.descs, n, a.totalPages - n, s)
      && r.value.next == a.(descs := MarkRun(a.descs, s, n))
    ensures n == 0 ==> r == Ok(Grant(NULL, a))
    ensures n == a.totalPages ==> r == Ok(Grant(NULL, a))
  {
    if a.totalPages < n then Fail(ArithmeticOverflow)
    else
      match Scan(a.descs, n, a.totalPages - n, 0, 0)
      case None => Ok(Grant(NULL, a))
      case Some(s) =>
        if s == 0 then Fail(ArithmeticOverflow)
        else
          var ptr := a.allocStart + s * PAGE_SIZE;
          assert (ptr - a.allocStart) / PAGE_SIZE == s;
          Ok(Grant(ptr, a.(descs := MarkRun(a.descs, s, n))))
  }

  /** The scan resets on every taken descriptor, so the descriptor just before
      the run it reports is taken already: the extra `Taken` write at s-1
      changes nothing inside the array, and only [s, s+n) is modified. */
  lemma AllocChangesOnlyTheRun(a: PageAllocator, n: nat)
    requires a.Valid()
    requires Alloc(a, n).Ok? && Alloc(a, n).value.ptr != NULL
    ensures var g := Alloc(a, n).value;
      var s := (g.ptr - a.allocStart) / PAGE_SIZE;
      && 1 <= s && IsTaken(a.descs[s - 1])
      && (forall j :: 0 <= j < |a.descs| && (j < s || s + n <= j) ==> g.next.descs[j] == a.descs[j])
      && (forall j :: s <= j < s + n ==> IsTaken(g.next.descs[j]))
  {
    var g := Alloc(a, n).value;
    var s := (g.ptr - a.allocStart) / PAGE_SIZE;
    var limit := a.totalPages - n;
    assert FirstFit(a.descs, n, limit, s);
    assert !Fits(a.descs, n, limit, s - 1);
  }

  /** On well-formed descriptors a granted run reads back as n-1 `Taken`
      descriptors followed by one `Taken|Last`. */
  lemma AllocMarksRun(a: PageAllocator, n: nat)
    requires a.Valid() && WellFormed(a.descs)
    requires Alloc(a, n).Ok? && Alloc(a, n).value.ptr != NULL
    ensures var g := Alloc(a, n).value;
      var s := (g.ptr - a.allocStart) / PAGE_SIZE;
      && (forall j :: s <= j < s + n - 1 ==> g.next.descs[j] == TAKEN)
      && g.next.descs[s + n - 1] == TAKEN | LAST
      && WellFormed(g.next.descs)
  {
    var g := Alloc(a, n).value;
    var s := (g.ptr - a.allocStart) / PAGE_SIZE;
    AllocChangesOnlyTheRun(a, n);
    assert FreeRun(a.descs, s, n);
    forall j | s <= j < s + n
      ensures a.descs[j] == FREE
    {
      assert IsFree(a.descs[j]);
    }
  }

  /** Two successive successful allocations never share a page. */
  lemma AllocsDisjoint(a: PageAllocator, n1: nat, n2: nat)
    requires a.Valid()
    requires Alloc(a, n1).Ok? && Alloc(a, n1).value.ptr != NULL
    requires Alloc(Alloc(a, n1).value.next, n2).Ok? && Alloc(Alloc(a, n1).value.next, n2).value.ptr != NULL
    ensures var g1 := Alloc(a, n1).value;
      var g2 := Alloc(g1.next, n2).value;
      g1.ptr + n1 * PAGE_SIZE <= g2.ptr || g2.ptr + n2 * PAGE_SIZE <= g1.ptr
  {
    var g1 := Alloc(a, n1).value;
    var g2 := Alloc(g1.next, n2).value;
    var s1 := (g1.ptr - a.allocStart) / PAGE_SIZE;
    var s2 := (g2.ptr - a.allocStart) / PAGE_SIZE;
    assert FreeRun(g1.next.descs, s2, n2);
    var d := g1.next.descs;
    assert d == MarkRun(a.descs, s1, n1);
    if s1 <= s2 {
      assert IsFree(d[s2]);
      assert IsTaken(d[s2]) || s1 + n1 <= s2;
    } else {
      assert IsTaken(d[s1]);
      assert IsFree(d[s1]) || s2 + n2 <= s1;
    }
    if s1 + n1 <= s2 {
      MulMonotone(s1 + n1, s2, PAGE_SIZE);
    } else {
      MulMonotone(s2 + n2, s1, PAGE_SIZE);
    }
  }

  /** `alloc` never frees a page: a descriptor that was `Taken` stays so. */
  lemma AllocKeepsTaken(a: PageAllocator, n: nat, j: nat)
    requires a.Valid() && Alloc(a, n).Ok?
    requires j < |a.descs| && IsTaken(a.descs[j])
    ensures IsTaken(Alloc(a, n).value.next.descs[j])
  {
    if Alloc(a, n).value.ptr != NULL {
      AllocChangesOnlyTheRun(a, n);
    }
  }

  /** The allocator after a sequence of `alloc` calls, each made on the state
      the previous one left, or the first panic among them. */
  function AllocSeq(a: PageAllocator, ns: seq<nat>): (r: Result<PageAllocator>)
    requires a.Valid()
    ensures r.Ok? ==> r.value.Valid()
    ensures r.Ok? ==> r.value.totalPages == a.totalPages && r.value.allocStart == a.allocStart
    ensures r.Fail? ==> r.fault == ArithmeticOverflow
    decreases |ns|
  {
    if ns == [] then Ok(a)
    else
      match Alloc(a, ns[0])
      case Fail(f) => Fail(f)
      case Ok(g) => AllocSeq(g.next, ns[1..])
  }

  /** No sequence of `alloc` calls frees a page. */
  lemma {:induction false} AllocSeqKeepsTaken(a: PageAllocator, ns: seq<nat>, j: nat)
    requires a.Valid() && AllocSeq(a, ns).Ok?
    requires j < |a.descs| && IsTaken(a.descs[j])
    ensures IsTaken(AllocSeq(a, ns).value.descs[j])
    decreases |ns|
  {
    if ns != [] {
      AllocKeepsTaken(a, ns[0], j);
      AllocSeqKeepsTaken(Alloc(a, ns[0]).value.next, ns[1..], j);
    }
  }

  /** A run of taken descriptors and a free run of the same array share no
      index. */
  lemma TakenAndFreeRunsApart(d: seq<bv8>, s1: nat, n1: nat, s2: nat, n2: nat)
    requires 1 <= n1 && 1 <= n2 && s1 + n1 <= |d|
    requires forall j :: s1 <= j < s1 + n1 ==> IsTaken(d[j])
    requires FreeRun(d, s2, n2)
    ensures s1 + n1 <= s2 || s2 + n2 <= s1
  {
    assert IsFree(d[s2]);
    assert IsTaken(d[s1]);
  }

  /** Disjoint page runs give disjoint address ranges. */
  lemma PageRunsApart(base: nat, s1: nat, n1: nat, s2: nat, n2: nat)
    requires s1 + n1 <= s2 || s2 + n2 <= s1
    ensures (base + s1 * PAGE_SIZE) + n1 * PAGE_SIZE <= base + s2 * PAGE_SIZE
         || (base + s2 * PAGE_SIZE) + n2 * PAGE_SIZE <= base + s1 * PAGE_SIZE
  {
    if s1 + n1 <= s2 {
      MulMonotone(s1 + n1, s2, PAGE_SIZE);
    } else {
      MulMonotone(s2 + n2, s1, PAGE_SIZE);
    }
  }

  /** The page index of a grant: its run was free before and is taken after. */
  lemma GrantRun(a: PageAllocator, n: nat) returns (s: nat)
    requires a.Valid()
    requires Alloc(a, n).Ok? && Alloc(a, n).value.ptr != NULL
    ensures 1 <= n && s + n <= |a.descs|
    ensures Alloc(a, n).value.ptr == a.allocStart + s * PAGE_SIZE
    ensures FreeRun(a.descs, s, n)
    ensures forall j :: s <= j < s + n ==> IsTaken(Alloc(a, n).value.next.descs[j])
  {
    s := (Alloc(a, n).value.ptr - a.allocStart) / PAGE_SIZE;
    assert Fits(a.descs, n, a.totalPages - n, s);
  }

  /** A grant never overlaps a later one, whatever allocations come between
      them. */
  lemma AllocsDisjointAcross(a: PageAllocator, n1: nat, ns: seq<nat>, n2: nat)
    requires a.Valid()
    requires Alloc(a, n1).Ok? && Alloc(a, n1).value.ptr != NULL
    requires AllocSeq(Alloc(a, n1).value.next, ns).Ok?
    requires var b := AllocSeq(Alloc(a, n1).value.next, ns).value;
      Alloc(b, n2).Ok? && Alloc(b, n2).value.ptr != NULL
    ensures var g1 := Alloc(a, n1).value;
      var g2 := Alloc(AllocSeq(g1.next, ns).value, n2).value;
      g1.ptr + n1 * PAGE_SIZE <= g2.ptr || g2.ptr + n2 * PAGE_SIZE <= g1.ptr
  {
    var g1 := Alloc(a, n1).value;
    var b := AllocSeq(g1.next, ns).value;
    var s1 := GrantRun(a, n1);
    var s2 := GrantRun(b, n2);
    forall j | s1 <= j < s1 + n1
      ensures IsTaken(b.descs[j])
    {
      AllocSeqKeepsTaken(g1.next, ns, j);
    }
    TakenAndFreeRunsApart(b.descs, s1, n1, s2, n2);
    PageRunsApart(a.allocStart, s1, n1, s2, n2);
  }

  // ---------------------------------------------------------------------------
  // dealloc

  /** Where the clearing loop of `dealloc` started at index i stops: the first
      descriptor that is `Last` or not `Taken`, or |d| when it would walk off
      the array. */
  function StopIndex(d: seq<bv8>, i: nat): (e: nat)
    requires i <= |d|
    ensures i <= e <= |d|
    ensures forall j :: i <= j < e ==> IsTaken(d[j]) && !IsLast(d[j])
    ensures e < |d| ==> IsLast(d[e]) || !IsTaken(d[e])
    decreases |d| - i
  {
    if i == |d| then |d|
    else if !IsLast(d[i]) && IsTaken(d[i]) then StopIndex(d, i + 1)
    else i
  }

  /** Descriptors lo .. hi (inclusive) set back to `Free`. */
  function ClearRange(d: seq<bv8>, lo: nat, hi: nat): (d': seq<bv8>)
    ensures |d'| == |d|
    ensures forall j :: 0 <= j < |d| ==> d'[j] == (if lo <= j <= hi then FREE else d[j])
  {
    seq(|d|, j requires 0 <= j < |d| => if lo <= j <= hi then FREE else d[j])
  }

  /** The descriptor index `dealloc` computes for a pointer at or above alloc_start. */
  function DescIndex(a: PageAllocator, ptr: nat): nat
    requires a.allocStart <= ptr
  {
    (ptr - a.allocStart) / PAGE_SIZE
  }

  /** `dealloc(ptr)`. The bounds check compares the descriptor address with
      alloc_start, so indices between total_num_pages and the end of the
      reserved prefix pass it and the loop reads outside the array. */
  function Dealloc(a: PageAllocator, ptr: nat): (r: Result<PageAllocator>)
    requires a.Valid()
    ensures r.Fail? && r.fault == ArithmeticOverflow <==> ptr < a.allocStart
    ensures r.Fail? && r.fault == PageOutOfBounds <==>
      a.allocStart <= ptr && a.heapStart + DescIndex(a, ptr) >= a.allocStart
    ensures r.Ok? ==>
      && a.allocStart <= ptr
      && DescIndex(a, ptr) < |a.descs|
      && a.heapStart + DescIndex(a, ptr) < a.allocStart
      && var i := DescIndex(a, ptr);
      var e := StopIndex(a.descs, i);
      && e < |a.descs| && IsLast(a.descs[e])
      && r.value == a.(descs := ClearRange(a.descs, i, e))
    ensures a.allocStart <= ptr && a.heapStart + DescIndex(a, ptr) < a.allocStart && DescIndex(a, ptr) < |a.descs| ==>
      var e := StopIndex(a.descs, DescIndex(a, ptr));
      (r.Fail? && r.fault == PageNotLast <==> e < |a.descs| && !IsLast(a.descs[e]))
  {
    if ptr < a.allocStart then Fail(ArithmeticOverflow)
    else
      var i := DescIndex(a, ptr);
      if a.heapStart + i >= a.allocStart then Fail(PageOutOfBounds)
      else if i >= |a.descs| then Fail(OutsideDescriptors)
      else
        var e := StopIndex(a.descs, i);
        if e == |a.descs| then Fail(OutsideDescriptors)
        else if !IsLast(a.descs[e]) then Fail(PageNotLast)
        else Ok(a.(descs := ClearRange(a.descs, i, e)))
  }

  /** Freeing a pointer whose descriptor is free panics with "Page is not
      marked as last". */
  lemma DeallocOfFreePagePanics(a: PageAllocator, ptr: nat)
    requires a.Valid() && WellFormed(a.descs)
    requires a.allocStart <= ptr && DescIndex(a, ptr) < |a.descs|
    requires IsFree(a.descs[DescIndex(a, ptr)])
    ensures Dealloc(a, ptr) == Fail(PageNotLast)
  {
    var i := DescIndex(a, ptr);
    assert a.descs[i] == FREE;
    assert StopIndex(a.descs, i) == i;
  }

  /** `alloc(n)` then `dealloc` of the returned pointer restores the
      allocator exactly. */
  lemma AllocDeallocRoundTrip(a: PageAllocator, n: nat)
    requires a.Valid() && WellFormed(a.descs)
    requires Alloc(a, n).Ok? && Alloc(a, n).value.ptr != NULL
    ensures Dealloc(Alloc(a, n).value.next, Alloc(a, n).value.ptr) == Ok(a)
  {
    var g := Alloc(a, n).value;
    var s := (g.ptr - a.allocStart) / PAGE_SIZE;
    var d, d' := a.descs, g.next.descs;
    AllocChangesOnlyTheRun(a, n);
    AllocMarksRun(a, n);
    assert DescIndex(g.next, g.ptr) == s;
    var e := StopIndex(d', s);
    assert e == s + n - 1;
    assert FreeRun(d, s, n);
    var c := ClearRange(d', s, e);
    forall j | 0 <= j < |d|
      ensures c[j] == d[j]
    {
      if s <= j < s + n {
        assert IsFree(d[j]);
      }
    }
    assert c == d;
  }

  /** A second `dealloc` of the same pointer panics: the double free is caught. */
  lemma DoubleFreePanics(a: PageAllocator, n: nat)
    requires a.Valid() && WellFormed(a.descs)
    requires Alloc(a, n).Ok? && Alloc(a, n).value.ptr != NULL
    ensures var g := Alloc(a, n).value;
      Dealloc(g.next, g.ptr) == Ok(a) && Dealloc(a, g.ptr) == Fail(PageNotLast)
  {
    var g := Alloc(a, n).value;
    AllocDeallocRoundTrip(a, n);
    var s := (g.ptr - a.allocStart) / PAGE_SIZE;
    assert FreeRun(a.descs, s, n);
    assert IsFree(a.descs[s]);
    DeallocOfFreePagePanics(a, g.ptr);
  }

  // ---------------------------------------------------------------------------
  // zero_alloc

  /** Physical memory, byte by byte. */
  type Memory = nat -> bv8

  /** `core::ptr::write_bytes(p, 0, len)`. */
  function ZeroFill(mem: Memory, p: nat, len: nat): (m: Memory)
    ensures forall x: nat :: p <= x < p + len ==> m(x) == 0
    ensures forall x: nat :: !(p <= x < p + len) ==> m(x) == mem(x)
  {
    (x: nat) => if p <= x < p + len then 0 else mem(x)
  }

  /** `zero_alloc(n)`: `alloc(n)`, then zero-filling of the n pages granted. */
  function ZeroAlloc(a: PageAllocator, mem: Memory, n: nat): (r: Result<(Grant, Memory)>)
    requires a.Valid()
    ensures r.Fail? <==> Alloc(a, n).Fail?
    ensures r.Fail? ==> r.fault == ArithmeticOverflow
    ensures r.Ok? ==> r.value.0 == Alloc(a, n).value
    ensures r.Ok? && r.value.0.ptr == NULL ==> r.value.1 == mem
    ensures r.Ok? && r.value.0.ptr != NULL ==> forall x: nat :: r.value.0.ptr <= x < r.value.0.ptr + n * PAGE_SIZE ==> r.value.1(x) == 0
    ensures r.Ok? ==> forall x: nat :: !(r.value.0.ptr <= x < r.value.0.ptr + n * PAGE_SIZE) ==> r.value.1(x) == mem(x)
  {
    match Alloc(a, n)
    case Fail(f) => Fail(f)
    case Ok(g) =>
      if g.ptr == NULL then Ok((g, mem))
      else Ok((g, ZeroFill(mem, g.ptr, n * PAGE_SIZE)))
  }
}

=== FILE: page_intended.dfy ===
/** The page allocator of kernel/page.rs as its comments and its printer
    evidently intend it, beside input cases that separate it from the code as
    written (module Page):

    - `init` clears every descriptor byte, not every PAGE_SIZE-th one;
    - `alloc` considers every run inside the array, and an oversized request
      returns NULL instead of underflowing;
    - `alloc` computes the start of a run at page 0 without underflowing,
      and marks exactly the run it found;
    - `dealloc` bounds the descriptor index by the page count, not by the
      address where allocatable memory starts. */
module PageIntended {
  import opened Common
  import opened Page

  // ---------------------------------------------------------------------------
  // init

  /** `init` with every descriptor cleared. */
  function Init(heapStart: nat, heapEnd: nat): (r: Result<PageAllocator>)
    ensures r.Fail? <==> heapEnd < heapStart
    ensures r.Ok? ==> r.value.Valid() && r.value.heapStart == heapStart
    ensures r.Ok? ==> forall j :: 0 <= j < |r.value.descs| ==> r.value.descs[j] == FREE
    ensures r.Ok? ==> WellFormed(r.value.descs) && RunsTerminated(r.value.descs)
    ensures r.Ok? ==> r.value.totalPages == (heapEnd - heapStart) / PAGE_SIZE
    ensures r.Ok? ==> var w := Page.Init(heapStart, heapEnd, r.value.descs).value;
      w.allocStart == r.value.allocStart && w.totalPages == r.value.totalPages
  {
    if heapEnd < heapStart then Fail(ArithmeticOverflow)
    else
      var total := (heapEnd - heapStart) / PAGE_SIZE;
      Pow2PageOrder();
      Ok(PageAllocator(heapStart, AlignVal(heapStart + total, PAGE_ORDER), total, seq(total, _ => FREE)))
  }

  /** Finding: as written, a stale byte in the descriptor prefix survives
      `init`; the intended `init` frees that page. */
  lemma InitStrideFinding()
    ensures Page.Init(0, 2 * PAGE_SIZE, [TAKEN, TAKEN]).Ok?
    ensures IsTaken(Page.Init(0, 2 * PAGE_SIZE, [TAKEN, TAKEN]).value.descs[1])
    ensures IsFree(Init(0, 2 * PAGE_SIZE).value.descs[1])
  {
    InitKeepsStaleDescriptor();
  }

  // ---------------------------------------------------------------------------
  // alloc

  /** Every `Taken` descriptor that is not `Last` is followed by another
      `Taken` one: each run inside the array ends in a `Last` marker. */
  ghost predicate RunsTerminated(d: seq<bv8>)
  {
    forall j :: 0 <= j < |d| && IsTaken(d[j]) && !IsLast(d[j]) ==> j + 1 < |d| && IsTaken(d[j + 1])
  }

  /** Marks exactly descriptors s .. s+n-1 `Taken`, the last one also `Last`. */
  function MarkExact(d: seq<bv8>, s: nat, n: nat): (d': seq<bv8>)
    requires 1 <= n && s + n <= |d|
    ensures |d'| == |d|
    ensures forall j :: 0 <= j < |d| && (j < s || s + n <= j) ==> d'[j] == d[j]
    ensures forall j :: s <= j < s + n - 1 ==> d'[j] == TAKEN
    ensures d'[s + n - 1] == TAKEN | LAST
  {
    seq(|d|, j requires 0 <= j < |d| =>
      if j == s + n - 1 then TAKEN | LAST
      else if s <= j < s + n then TAKEN
      else d[j])
  }

  /** `alloc(n)` scanning the whole array: NULL exactly when no run of n free
      descriptors exists anywhere. */
  function Alloc(a: PageAllocator, n: nat): (g: Grant)
    requires a.Valid()
    ensures g.ptr == NULL <==> NoFit(a.descs, n, a.totalPages)
    ensures g.ptr == NULL ==> g.next == a
    ensures g.ptr != NULL ==>
      g.ptr >= a.allocStart &&
      var s: nat := (g.ptr - a.allocStart) / PAGE_SIZE;
      && g.ptr == a.allocStart + s * PAGE_SIZE
      && FirstFit(a.descs, n, a.totalPages, s)
      && g.next == a.(descs := MarkExact(a.descs, s, n))
  {
    if a.totalPages < n then
      assert NoFit(a.descs, n, a.totalPages);
      Grant(NULL, a)
    else
      match Scan(a.descs, n, a.totalPages, 0, 0)
      case None => Grant(NULL, a)
      case Some(s) =>
        var ptr := a.allocStart + s * PAGE_SIZE;
        assert (ptr - a.allocStart) / PAGE_SIZE == s;
        Grant(ptr, a.(descs := MarkExact(a.descs, s, n)))
  }

  /** The intended `alloc` keeps the descriptor invariants. */
  lemma AllocPreservesInvariants(a: PageAllocator, n: nat)
    requires a.Valid() && WellFormed(a.descs) && RunsTerminated(a.descs)
    ensures Alloc(a, n).next.Valid()
    ensures WellFormed(Alloc(a, n).next.descs) && RunsTerminated(Alloc(a, n).next.descs)
  {
    var g := Alloc(a, n);
    if g.ptr != NULL {
      var s := (g.ptr - a.allocStart) / PAGE_SIZE;
      var d, d' := a.descs, g.next.descs;
      assert FreeRun(d, s, n);
      forall j | 0 <= j < |d'| && IsTaken(d'[j]) && !IsLast(d'[j])
        ensures j + 1 < |d'| && IsTaken(d'[j + 1])
      {
        if s <= j < s + n {
          assert j < s + n - 1;
        } else {
          assert IsTaken(d[j]) && !IsLast(d[j]);
          assert j + 1 < |d|;
          if j + 1 == s {
            assert IsFree(d[s]);
          }
        }
      }
    }
  }

  /** With every page free, the intended `alloc` grants the whole heap. */
  lemma AllocWholeHeap(a: PageAllocator)
    requires a.Valid() && a.totalPages >= 1
    requires forall j :: 0 <= j < |a.descs| ==> a.descs[j] == FREE
    ensures Alloc(a, a.totalPages).ptr == a.allocStart
  {
    assert Fits(a.descs, a.totalPages, a.totalPages, 0);
  }

  /** Finding: as written, `alloc(total_num_pages)` on an entirely free heap
      returns NULL and `alloc(total_num_pages + 1)` underflows; the intended
      `alloc` grants the first and returns NULL for the second. */
  lemma ScanBoundFinding(a: PageAllocator)
    requires a.Valid() && a.totalPages >= 1
    requires forall j :: 0 <= j < |a.descs| ==> a.descs[j] == FREE
    ensures Page.Alloc(a, a.totalPages) == Ok(Grant(NULL, a))
    ensures Alloc(a, a.totalPages).ptr == a.allocStart
    ensures Page.Alloc(a, a.totalPages + 1) == Fail(ArithmeticOverflow)
    ensures Alloc(a, a.totalPages + 1) == Grant(NULL, a)
  {
    AllocWholeHeap(a);
  }

  /** Finding: as written, computing the start of a run that begins at page 0
      underflows, so the first allocation from a fresh heap panics; the
      intended `alloc` grants page 0 and marks just that page. */
  lemma RunAtZeroFinding(a: PageAllocator)
    requires a.Valid() && a.totalPages >= 2
    requires forall j :: 0 <= j < |a.descs| ==> a.descs[j] == FREE
    ensures Page.Alloc(a, 1) == Fail(ArithmeticOverflow)
    ensures Alloc(a, 1).ptr == a.allocStart
    ensures Alloc(a, 1).next.descs == a.descs[0 := TAKEN | LAST]
  {
    assert Fits(a.descs, 1, a.totalPages - 1, 0);
    assert Fits(a.descs, 1, a.totalPages, 0);
  }

  // ---------------------------------------------------------------------------
  // dealloc

  /** On terminated runs, the clearing loop started inside the array stops
      inside it. */
  lemma {:induction false} StopIndexInside(d: seq<bv8>, i: nat)
    requires i < |d|
    ensures RunsTerminated(d) ==> StopIndex(d, i) < |d|
    decreases |d| - i
  {
    if RunsTerminated(d) && !IsLast(d[i]) && IsTaken(d[i]) {
      StopIndexInside(d, i + 1);
    }
  }

  /** `dealloc(ptr)` with the bounds check against the descriptor count. */
  function Dealloc(a: PageAllocator, ptr: nat): (r: Result<PageAllocator>)
    requires a.Valid()
    ensures r.Fail? && r.fault == PageOutOfBounds <==>
      ptr < a.allocStart || DescIndex(a, ptr) >= a.totalPages
    ensures RunsTerminated(a.descs) ==> !(r.Fail? && r.fault == OutsideDescriptors)
    ensures r.Ok? ==> r == Page.Dealloc(a, ptr)
  {
    if ptr < a.allocStart || DescIndex(a, ptr) >= a.totalPages then Fail(PageOutOfBounds)
    else
      var i := DescIndex(a, ptr);
      StopIndexInside(a.descs, i);
      var e := StopIndex(a.descs, i);
      if e == |a.descs| then Fail(OutsideDescriptors)
      else if !IsLast(a.descs[e]) then Fail(PageNotLast)
      else Ok(a.(descs := ClearRange(a.descs, i, e)))
  }

  /** Finding: as written, the pointer one page past the last allocatable page
      of a three-page heap passes the bounds check and the loop reads past the
      descriptor array; the intended check rejects it. */
  lemma DeallocBoundFinding()
    ensures var a := Init(0, 3 * PAGE_SIZE).value;
      && a.allocStart == PAGE_SIZE
      && Page.Dealloc(a, a.allocStart + 3 * PAGE_SIZE) == Fail(OutsideDescriptors)
      && Dealloc(a, a.allocStart + 3 * PAGE_SIZE) == Fail(PageOutOfBounds)
  {
    var a := Init(0, 3 * PAGE_SIZE).value;
    Pow2PageOrder();
    assert a.totalPages == 3;
    assert a.allocStart == PAGE_SIZE;
    assert DescIndex(a, a.allocStart + 3 * PAGE_SIZE) == 3;
  }

  /** The intended pair restores the allocator: alloc then dealloc is the identity. */
  lemma AllocDeallocRoundTrip(a: PageAllocator, n: nat)
    requires a.Valid() && WellFormed(a.descs)
    requires Alloc(a, n).ptr != NULL
    ensures Dealloc(Alloc(a, n).next, Alloc(a, n).ptr) == Ok(a)
  {
    var g := Alloc(a, n);
    var s := (g.ptr - a.allocStart) / PAGE_SIZE;
    var d, d' := a.descs, g.next.descs;
    assert DescIndex(g.next, g.ptr) == s;
    var e := StopIndex(d', s);
    assert e == s + n - 1;
    assert FreeRun(d, s, n);
    var c := ClearRange(d', s, e);
    forall j | 0 <= j < |d|
      ensures c[j] == d[j]
    {
      if s <= j < s + n {
        assert IsFree(d[j]);
      }
    }
    assert c == d;
  }
}

=== FILE: page_table.dfy ===
/** The Sv32 two-level page table of kernel/page_table.rs (section 4.3 of the
    RISC-V privileged architecture): a root table of 1024 level-1 entries,
    each either invalid or pointing at a level-0 table of 1024 entries.

    Virtual addresses are 32-bit `usize` values, physical addresses `u64`
    values and entries `usize` words, all held as natural numbers. The bit
    fields of an entry are read with division and remainder: bits 31..10 hold
    the physical page number (PPN), bits 9..0 the flags. Level-0 tables live
    in physical memory, modelled as a total map from a table address to a
    table; the root table is the kernel's static `ROOT_PAGE_TABLE` and is kept
    apart from that memory. The page that `zero_alloc(1)` hands to `map` is a
    parameter. */
module PageTable {
  import opened Common
  import Page

  const ENTRIES_PER_TABLE: nat := 1024

  /** One more than the largest 32-bit `usize`. */
  const WORD: nat := 0x1_0000_0000

  // EntryFlags: the low bits of an entry.
  const VALID: nat := 0x01
  const READ: nat := 0x02
  const WRITE: nat := 0x04
  const EXECUTE: nat := 0x08
  const USER: nat := 0x10
  const GLOBAL: nat := 0x20
  const ACCESSED: nat := 0x40
  const DIRTY: nat := 0x80

  type Table = t: seq<nat> | |t| == ENTRIES_PER_TABLE witness seq(ENTRIES_PER_TABLE, _ => 0)

  /** Physical memory as seen through table pointers. */
  type Memory = nat -> Table

  datatype Tables = Tables(root: Table, mem: Memory)

  // ---------------------------------------------------------------------------
  // Addresses

  /** `VirtualAddress::vpn1`: bits 31..22, the index into the root table. */
  function Vpn1(va: nat): (r: nat)
    ensures r < ENTRIES_PER_TABLE
  {
    (va / 0x40_0000) % 1024
  }

  /** `VirtualAddress::vpn0`: bits 21..12, the index into a level-0 table. */
  function Vpn0(va: nat): (r: nat)
    ensures r < ENTRIES_PER_TABLE
  {
    (va / 0x1000) % 1024
  }

  /** The two indices are the high and low halves of the virtual page number,
      and the address is recovered from them and the page offset. */
  lemma VpnSplit(va: nat)
    requires va < WORD
    ensures Vpn1(va) == (va / PAGE_SIZE) / 1024 && Vpn0(va) == (va / PAGE_SIZE) % 1024
    ensures va == Vpn1(va) * 0x40_0000 + Vpn0(va) * PAGE_SIZE + va % PAGE_SIZE
  {
    var p := va / 0x1000;
    var q := p / 1024;
    assert va == 0x1000 * p + va % 0x1000;
    assert p == 1024 * q + p % 1024;
    assert va == q * 0x40_0000 + (0x1000 * (p % 1024) + va % 0x1000);
    DivUnique(va, 0x40_0000, q, 0x1000 * (p % 1024) + va % 0x1000);
  }

  /** Two addresses select the same level-1 and level-0 slots exactly when
      they lie in the same page. */
  lemma SameSlotsIffSamePage(va: nat, vb: nat)
    requires va < WORD && vb < WORD
    ensures (Vpn1(va) == Vpn1(vb) && Vpn0(va) == Vpn0(vb)) <==> va / PAGE_SIZE == vb / PAGE_SIZE
  {
    VpnSplit(va);
    VpnSplit(vb);
    var pa, pb := va / PAGE_SIZE, vb / PAGE_SIZE;
    assert pa == (pa / 1024) * 1024 + pa % 1024;
    assert pb == (pb / 1024) * 1024 + pb % 1024;
  }

  /** `VirtualAddress::is_aligned` and `PhysicalAddress::is_aligned`. */
  predicate Aligned(a: nat)
  {
    a % PAGE_SIZE == 0
  }

  /** `PhysicalAddress::to_ppn`: bits 33..12 of the address, moved to bits
      31..10 of an entry. */
  function ToPpn(pa: nat): (ppn: nat)
    ensures ppn % 0x400 == 0 && ppn < WORD
  {
    var q := (pa % 0x4_0000_0000) / 0x1000;
    MulDivExact(q, 0x400);
    q * 0x400
  }

  // ---------------------------------------------------------------------------
  // Entries

  /** `Entry::is_valid`: bit 0. */
  predicate IsValid(e: nat)
  {
    e % 2 == 1
  }

  /** `Entry::is_leaf`: one of Read, Write, Execute (bits 1..3) is set. */
  predicate IsLeaf(e: nat)
  {
    (e / 2) % 8 != 0
  }

  predicate IsBranch(e: nat)
  {
    !IsLeaf(e)
  }

  /** `Entry::get_phys_address`: the PPN field shifted back to a byte address. */
  function PhysAddress(e: nat): (pa: nat)
    ensures Aligned(pa)
  {
    MulDivExact(e / 0x400, 0x1000);
    e / 0x400 * 0x1000
  }

  /** The table pointer an entry designates: its physical address cast to a
      32-bit pointer, which drops bits 33 and 32. */
  function TableAt(e: nat): (p: nat)
    ensures Aligned(p) && p < WORD
  {
    var pa := PhysAddress(e);
    var k, n := pa / PAGE_SIZE, pa / WORD;
    assert pa == k * PAGE_SIZE;
    assert pa % WORD == (k - n * 0x10_0000) * PAGE_SIZE;
    MulDivExact(k - n * 0x10_0000, PAGE_SIZE);
    pa % WORD
  }

  /** `flags | Valid` for a flags word within the ten flag bits: bit 0 set,
      every other bit as the caller gave it. */
  function SetValid(flags: nat): (f: nat)
    requires flags < 0x400
    ensures f < 0x400 && IsValid(f)
    ensures f / 2 == flags / 2
    ensures IsValid(flags) ==> f == flags
  {
    if flags % 2 == 1 then flags else flags + 1
  }

  /** The level-0 entry `map` writes: the PPN of `pa`, the caller's flags and
      Valid. The PPN has no bit below bit 10, so the bitwise or is a sum. */
  function Pte(pa: nat, flags: nat): nat
    requires flags < 0x400
  {
    ToPpn(pa) + SetValid(flags)
  }

  /** An entry written by `map` is a valid 32-bit word that gives back the
      physical address and the flags it was built from, for aligned 34-bit
      addresses. */
  lemma PteRoundTrip(pa: nat, flags: nat)
    requires Aligned(pa) && pa < 0x4_0000_0000 && flags < 0x400
    ensures Pte(pa, flags) < WORD && IsValid(Pte(pa, flags))
    ensures PhysAddress(Pte(pa, flags)) == pa
    ensures Pte(pa, flags) % 0x400 == SetValid(flags)
  {
    var q := pa / 0x1000;
    assert pa == q * 0x1000;
    DivUnique(q * 0x400 + SetValid(flags), 0x400, q, SetValid(flags));
    DivUnique(q * 0x400 + SetValid(flags), 2, q * 0x200 + SetValid(flags) / 2, SetValid(flags) % 2);
  }

  /** The level-1 entry `map` installs for a new table at `p`. */
  function BranchTo(p: nat): nat
  {
    p / 0x1000 * 0x400 + VALID
  }

  /** The installed entry is a valid branch that leads back to the table. */
  lemma BranchToRoundTrip(p: nat)
    requires Aligned(p) && p < WORD
    ensures IsValid(BranchTo(p)) && IsBranch(BranchTo(p))
    ensures TableAt(BranchTo(p)) == p
  {
    var q := p / 0x1000;
    DivUnique(q * 0x400 + 1, 0x400, q, 1);
    DivUnique(q * 0x400 + 1, 2, q * 0x200, 1);
    DivUnique(q * 0x200, 8, q * 0x40, 0);
  }

  /** `PageTable::new()`, and equally a zero-filled page: no entry is valid. */
  function New(): (t: Table)
    ensures forall k :: 0 <= k < ENTRIES_PER_TABLE ==> !IsValid(t[k]) && t[k] == 0
  {
    seq(ENTRIES_PER_TABLE, _ => 0)
  }

  /** The value `init_stap` writes to satp: mode Sv32 (bit 31), ASID 0
      (bits 30..22) and the root table's physical page number (bits 21..0). */
  function Satp(rootAddr: nat): (satp: nat)
    requires rootAddr < WORD
    ensures satp < WORD
    ensures satp / 0x8000_0000 == 1
    ensures (satp / 0x40_0000) % 0x200 == 0
    ensures satp % 0x40_0000 == rootAddr / PAGE_SIZE
  {
    0x8000_0000 + rootAddr / 0x1000
  }

  // ---------------------------------------------------------------------------
  // Reading the table

  /** The mapping of `va`: the level-0 entry at vpn0 in the table the level-1
      entry points to, when both are valid. Like `map`, this follows a valid
      level-1 entry even when its flags make it a leaf. */
  function Lookup(t: Tables, va: nat): Option<nat>
    requires va < WORD
  {
    var level1 := t.root[Vpn1(va)];
    if !IsValid(level1) then None
    else
      var e := t.mem(TableAt(level1))[Vpn0(va)];
      if IsValid(e) then Some(e) else None
  }

  /** No two valid level-1 entries point at the same level-0 table. */
  ghost predicate TablesDistinct(root: Table)
  {
    forall k1, k2 :: 0 <= k1 < k2 < ENTRIES_PER_TABLE && IsValid(root[k1]) && IsValid(root[k2]) ==>
      TableAt(root[k1]) != TableAt(root[k2])
  }

  /** The page at `p` is not a level-0 table of `root`. */
  ghost predicate NotInUse(root: Table, p: nat)
  {
    forall k :: 0 <= k < ENTRIES_PER_TABLE && IsValid(root[k]) ==> TableAt(root[k]) != p
  }

  // ---------------------------------------------------------------------------
  // map

  function Store(mem: Memory, at: nat, table: Table): (mem': Memory)
    ensures mem'(at) == table
    ensures forall p :: p != at ==> mem'(p) == mem(p)
  {
    (p: nat) => if p == at then table else mem(p)
  }

  /** The tables after `map`, and whether `map` took a page from `zero_alloc(1)`. */
  datatype Mapped = Mapped(tables: Tables, tookPage: bool)

  /** `PageTable::map(va, pa, flags)`. `newPage` is what `zero_alloc(1)` returns
      if the level-1 entry is invalid (NULL when the heap is exhausted, which
      `map` does not check; a non-null page comes back zero-filled). */
  function Map(t: Tables, va: nat, pa: nat, flags: nat, newPage: nat): (r: Result<Mapped>)
    requires va < WORD && flags < 0x400
    ensures r.Panics(VirtNotAligned) <==> !Aligned(va)
    ensures r.Panics(PhysNotAligned) <==> Aligned(va) && !Aligned(pa)
    ensures r.Ok? <==> Aligned(va) && Aligned(pa)
    ensures r.Ok? ==> (r.value.tookPage <==> !IsValid(t.root[Vpn1(va)]))
    ensures r.Ok? ==> forall k :: 0 <= k < ENTRIES_PER_TABLE && k != Vpn1(va) ==>
      r.value.tables.root[k] == t.root[k]
    ensures r.Ok? && !r.value.tookPage ==> r.value.tables.root == t.root
    ensures r.Ok? && r.value.tookPage ==> r.value.tables.root[Vpn1(va)] == BranchTo(newPage)
  {
    if !Aligned(va) then Fail(VirtNotAligned)
    else if !Aligned(pa) then Fail(PhysNotAligned)
    else
      var v1 := Vpn1(va);
      var level1 := t.root[v1];
      var tookPage := !IsValid(level1);
      var target := if tookPage then newPage else TableAt(level1);
      var root' := if tookPage then t.root[v1 := BranchTo(newPage)] else t.root;
      var mem': Memory := if tookPage && newPage != NULL then Store(t.mem, newPage, New()) else t.mem;
      var table := mem'(target)[Vpn0(va) := Pte(pa, flags)];
      Ok(Mapped(Tables(root', Store(mem', target, table)), tookPage))
  }

  /** After `map`, `va` is mapped to the new entry; when `map` took a page,
      the level-1 entry is a valid branch leading to it. */
  lemma MapWritesEntry(t: Tables, va: nat, pa: nat, flags: nat, newPage: nat)
    requires va < WORD && flags < 0x400 && Map(t, va, pa, flags, newPage).Ok?
    requires Map(t, va, pa, flags, newPage).value.tookPage ==> Aligned(newPage) && newPage < WORD
    ensures Lookup(Map(t, va, pa, flags, newPage).value.tables, va) == Some(Pte(pa, flags))
    ensures Map(t, va, pa, flags, newPage).value.tookPage ==>
      var e := Map(t, va, pa, flags, newPage).value.tables.root[Vpn1(va)];
      IsValid(e) && IsBranch(e) && TableAt(e) == newPage
  {
    if !IsValid(t.root[Vpn1(va)]) {
      BranchToRoundTrip(newPage);
    }
    PteParity(pa, flags);
  }

  /** Every entry `map` writes has the Valid bit. */
  lemma PteParity(pa: nat, flags: nat)
    requires flags < 0x400
    ensures IsValid(Pte(pa, flags))
  {
    var q := ToPpn(pa) / 0x400;
    assert ToPpn(pa) == q * 0x400;
    DivUnique(Pte(pa, flags), 2, q * 0x200 + SetValid(flags) / 2, 1);
  }

  /** A non-null page taken by `map` comes back zero-filled: apart from the
      new entry, every entry of the new table is invalid. */
  lemma MapZeroesNewTable(t: Tables, va: nat, pa: nat, flags: nat, newPage: nat)
    requires va < WORD && flags < 0x400 && Map(t, va, pa, flags, newPage).Ok?
    requires Map(t, va, pa, flags, newPage).value.tookPage && newPage != NULL
    ensures forall k :: 0 <= k < ENTRIES_PER_TABLE && k != Vpn0(va) ==>
      Map(t, va, pa, flags, newPage).value.tables.mem(newPage)[k] == 0
  {
  }

  /** A page `map` may take: page aligned, not null, a 32-bit address and not
      a table in use. */
  ghost predicate Usable(root: Table, p: nat)
  {
    Aligned(p) && p != NULL && p < WORD && NotInUse(root, p)
  }

  /** `map` changes the mapping of no other page, as long as the level-0
      tables are distinct and a page it takes is usable. */
  lemma MapFrame(t: Tables, va: nat, pa: nat, flags: nat, newPage: nat, other: nat)
    requires va < WORD && other < WORD && flags < 0x400 && other / PAGE_SIZE != va / PAGE_SIZE
    requires Map(t, va, pa, flags, newPage).Ok?
    requires TablesDistinct(t.root)
    requires Map(t, va, pa, flags, newPage).value.tookPage ==> Usable(t.root, newPage)
    ensures Lookup(Map(t, va, pa, flags, newPage).value.tables, other) == Lookup(t, other)
  {
    SameSlotsIffSamePage(va, other);
    if !IsValid(t.root[Vpn1(va)]) {
      BranchToRoundTrip(newPage);
    }
  }

  /** `map` keeps the level-0 tables distinct when a page it takes is usable,
      and every other page that was usable stays usable. */
  lemma MapKeepsTablesDistinct(t: Tables, va: nat, pa: nat, flags: nat, newPage: nat)
    requires va < WORD && flags < 0x400 && Map(t, va, pa, flags, newPage).Ok?
    requires TablesDistinct(t.root)
    requires Map(t, va, pa, flags, newPage).value.tookPage ==> Usable(t.root, newPage)
    ensures TablesDistinct(Map(t, va, pa, flags, newPage).value.tables.root)
    ensures forall p :: Usable(t.root, p) && p != newPage ==>
      Usable(Map(t, va, pa, flags, newPage).value.tables.root, p)
  {
    if !IsValid(t.root[Vpn1(va)]) {
      BranchToRoundTrip(newPage);
    }
  }

  /** A second mapping into a level-1 region that already has a table reuses
      it: no page is taken and the root is unchanged. */
  lemma MapReusesTable(t: Tables, va: nat, pa: nat, flags: nat, newPage: nat, va2: nat, pa2: nat, newPage2: nat)
    requires va < WORD && va2 < WORD && flags < 0x400 && Vpn1(va) == Vpn1(va2)
    requires Map(t, va, pa, flags, newPage).Ok?
    requires Map(t, va, pa, flags, newPage).value.tookPage ==> Aligned(newPage) && newPage < WORD
    requires Map(Map(t, va, pa, flags, newPage).value.tables, va2, pa2, flags, newPage2).Ok?
    ensures !Map(Map(t, va, pa, flags, newPage).value.tables, va2, pa2, flags, newPage2).value.tookPage
    ensures Map(Map(t, va, pa, flags, newPage).value.tables, va2, pa2, flags, newPage2).value.tables.root ==
      Map(t, va, pa, flags, newPage).value.tables.root
  {
    if !IsValid(t.root[Vpn1(va)]) {
      BranchToRoundTrip(newPage);
    }
  }

  // ---------------------------------------------------------------------------
  // map_kernel_range

  /** The pages `zero_alloc(1)` hands out, in call order, are usable and
      pairwise distinct. */
  ghost predicate FreshPages(root: Table, pages: nat -> nat)
  {
    && (forall m: nat :: Usable(root, pages(m)))
    && (forall m1: nat, m2: nat :: m1 != m2 ==> pages(m1) != pages(m2))
  }

  /** What `map_kernel_range` has established once every page from `start`
      below `va` is mapped and `used` pages were taken: those pages are
      identity mapped, every other page keeps its mapping from `t`, the tables
      stay distinct and the pages still to be handed out are usable. */
  ghost predicate RangeMapped(t: Tables, cur: Tables, start: nat, va: nat, flags: nat, pages: nat -> nat, used: nat)
    requires flags < 0x400
  {
    && TablesDistinct(cur.root)
    && (forall m: nat :: m >= used ==> Usable(cur.root, pages(m)))
    && (forall x: nat :: x < WORD && Aligned(x) && start <= x < va ==> Lookup(cur, x) == Some(Pte(x, flags)))
    && (forall x: nat :: x < WORD && (x < start || x >= va) ==> Lookup(cur, x) == Lookup(t, x))
  }

  /** An address below an aligned `va` lies in an earlier page. */
  lemma EarlierPage(x: nat, va: nat)
    requires Aligned(va) && x < va
    ensures x / PAGE_SIZE < va / PAGE_SIZE
  {
    assert va == (va / PAGE_SIZE) * PAGE_SIZE;
  }

  /** One iteration of the `map_kernel_range` loop keeps `RangeMapped`. */
  lemma MapRangeStep(t: Tables, cur: Tables, start: nat, va: nat, flags: nat, pages: nat -> nat, used: nat)
    requires Aligned(start) && Aligned(va) && start <= va && va + PAGE_SIZE < WORD && flags < 0x400
    requires forall m1: nat, m2: nat :: m1 != m2 ==> pages(m1) != pages(m2)
    requires RangeMapped(t, cur, start, va, flags, pages, used)
    ensures Map(cur, va, va, flags, pages(used)).Ok?
    ensures var m := Map(cur, va, va, flags, pages(used));
      RangeMapped(t, m.value.tables, start, va + PAGE_SIZE, flags, pages, if m.value.tookPage then used + 1 else used)
  {
    var m := Map(cur, va, va, flags, pages(used));
    var next := m.value.tables;
    var used' := if m.value.tookPage then used + 1 else used;
    MapKeepsTablesDistinct(cur, va, va, flags, pages(used));
    MapWritesEntry(cur, va, va, flags, pages(used));
    forall m': nat | m' >= used'
      ensures Usable(next.root, pages(m'))
    {
      assert Usable(cur.root, pages(m'));
    }
    forall x: nat | x < WORD && Aligned(x) && start <= x < va + PAGE_SIZE
      ensures Lookup(next, x) == Some(Pte(x, flags))
    {
      if x != va {
        assert x < va by {
          if x > va {
            EarlierPage(va, x);
          }
        }
        EarlierPage(x, va);
        MapFrame(cur, va, va, flags, pages(used), x);
      }
    }
    forall x: nat | x < WORD && (x < start || x >= va + PAGE_SIZE)
      ensures Lookup(next, x) == Lookup(t, x)
    {
      if x < start {
        EarlierPage(x, va);
      } else {
        EarlierPage(va + PAGE_SIZE - 1, va + PAGE_SIZE);
        MulDivExact(va / PAGE_SIZE + 1, PAGE_SIZE);
        assert (va + PAGE_SIZE) / PAGE_SIZE == va / PAGE_SIZE + 1;
      }
      MapFrame(cur, va, va, flags, pages(used), x);
    }
  }

  /** `PageTable::map_kernel_range(start, end, flags)`: identity-maps every
      page from `start` up to `end` rounded up to a page, one page after the
      other. `pages(m)` is the page the m-th `zero_alloc(1)` of the range
      returns and `used` counts the pages taken. A misaligned `start` maps
      nothing; a rounded `end` below `start`, or an `end` too close to 2^32
      to be rounded, makes `usize` arithmetic overflow. */
  method MapKernelRange(t: Tables, start: nat, end: nat, flags: nat, pages: nat -> nat)
    returns (r: Result<Tables>, used: nat)
    requires start < WORD && end < WORD && flags < 0x400
    ensures !Aligned(start) ==>
      r.Ok? && r.value.root == t.root && used == 0 && (forall x: nat :: x < WORD ==> Lookup(r.value, x) == Lookup(t, x))
    ensures Aligned(start) && end + (PAGE_SIZE - 1) >= WORD ==> r.Panics(ArithmeticOverflow)
    ensures Aligned(start) && end + (PAGE_SIZE - 1) < WORD ==>
      (r.Panics(ArithmeticOverflow) <==> Page.AlignVal(end, PAGE_ORDER) < start)
    ensures r.Ok? || r.Panics(ArithmeticOverflow)
    ensures r.Ok? && Aligned(start) ==>
      && start <= Page.AlignVal(end, PAGE_ORDER) < WORD
      && used <= (Page.AlignVal(end, PAGE_ORDER) - start) / PAGE_SIZE
      && (TablesDistinct(t.root) && FreshPages(t.root, pages) ==>
        && TablesDistinct(r.value.root)
        && (forall x: nat :: x < WORD && Aligned(x) && start <= x < Page.AlignVal(end, PAGE_ORDER) ==>
              Lookup(r.value, x) == Some(Pte(x, flags)))
        && (forall x: nat :: x < WORD && (x < start || x >= Page.AlignVal(end, PAGE_ORDER)) ==>
              Lookup(r.value, x) == Lookup(t, x)))
  {
    if !Aligned(start) {
      return Ok(t), 0;
    }
    if end + (PAGE_SIZE - 1) >= WORD {
      return Fail(ArithmeticOverflow), 0;
    }
    var alignedEnd := Page.AlignVal(end, PAGE_ORDER);
    Pow2PageOrder();
    if alignedEnd < start {
      return Fail(ArithmeticOverflow), 0;
    }
    var numPages := (alignedEnd - start) / PAGE_SIZE;
    assert alignedEnd - start == numPages * PAGE_SIZE by {
      assert start == (start / PAGE_SIZE) * PAGE_SIZE;
      assert alignedEnd == (alignedEnd / PAGE_SIZE) * PAGE_SIZE;
    }
    ghost var ok := TablesDistinct(t.root) && FreshPages(t.root, pages);
    var cur := t;
    used := 0;
    var i := 0;
    while i < numPages
      invariant i <= numPages && used <= i
      invariant ok ==> RangeMapped(t, cur, start, start + i * PAGE_SIZE, flags, pages, used)
    {
      var va := start + i * PAGE_SIZE;
      assert va + PAGE_SIZE <= alignedEnd by {
        MulMonotone(i + 1, numPages, PAGE_SIZE);
      }
      assert Aligned(va);
      if ok {
        MapRangeStep(t, cur, start, va, flags, pages, used);
      }
      var m := Map(cur, va, va, flags, pages(used));
      if m.value.tookPage {
        used := used + 1;
      }
      cur := m.value.tables;
      i := i + 1;
    }
    r := Ok(cur);
  }

  /** A page mapped by `map_kernel_range` maps to itself with the caller's flags. */
  lemma IdentityMapped(x: nat, flags: nat)
    requires x < WORD && Aligned(x) && flags < 0x400
    ensures PhysAddress(Pte(x, flags)) == x
    ensures Pte(x, flags) % 0x400 == SetValid(flags)
  {
    PteRoundTrip(x, flags);
  }

  // ---------------------------------------------------------------------------
  // unmap

  /** The indices k < i of the valid branch entries of `root`, in order. */
  function BranchSlots(root: Table, i: nat): (slots: seq<nat>)
    requires i <= ENTRIES_PER_TABLE
    ensures forall a :: 0 <= a < |slots| ==> slots[a] < i
  {
    if i == 0 then []
    else if IsValid(root[i - 1]) && IsBranch(root[i - 1]) then BranchSlots(root, i - 1) + [i - 1]
    else BranchSlots(root, i - 1)
  }

  /** `BranchSlots(root, i)` lists every valid branch entry below index i,
      nothing else, each once, in ascending order. */
  lemma {:induction false} BranchSlotsExact(root: Table, i: nat)
    requires i <= ENTRIES_PER_TABLE
    ensures forall k: nat :: k in BranchSlots(root, i) <==> k < i && IsValid(root[k]) && IsBranch(root[k])
    ensures forall a, b :: 0 <= a < b < |BranchSlots(root, i)| ==> BranchSlots(root, i)[a] < BranchSlots(root, i)[b]
  {
    if i > 0 {
      BranchSlotsExact(root, i - 1);
      var prev := BranchSlots(root, i - 1);
      if IsValid(root[i - 1]) && IsBranch(root[i - 1]) {
        assert BranchSlots(root, i) == prev + [i - 1];
        assert forall k: nat :: k in BranchSlots(root, i) <==> k in prev || k == i - 1;
      } else {
        assert BranchSlots(root, i) == prev;
      }
    }
  }

  /** `PageTable::unmap`: hands the table of every valid branch entry to the
      page allocator's `dealloc`, in entry order, and clears every entry. The
      pointers passed to `dealloc` are returned. */
  method Unmap(root: Table) returns (cleared: Table, freed: seq<nat>)
    ensures forall k :: 0 <= k < ENTRIES_PER_TABLE ==> cleared[k] == 0 && !IsValid(cleared[k])
    ensures |freed| == |BranchSlots(root, ENTRIES_PER_TABLE)|
    ensures forall j :: 0 <= j < |freed| ==> freed[j] == TableAt(root[BranchSlots(root, ENTRIES_PER_TABLE)[j]])
  {
    cleared := root;
    freed := [];
    var i := 0;
    while i < ENTRIES_PER_TABLE
      invariant i <= ENTRIES_PER_TABLE
      invariant forall k :: 0 <= k < i ==> cleared[k] == 0
      invariant |freed| == |BranchSlots(root, i)|
      invariant forall j :: 0 <= j < |freed| ==> freed[j] == TableAt(root[BranchSlots(root, i)[j]])
    {
      if IsValid(root[i]) && IsBranch(root[i]) {
        freed := freed + [TableAt(root[i])];
      }
      cleared := cleared[i := 0];
      i := i + 1;
    }
  }
}

=== FILE: process.dfy ===
/** The process records of kernel/process.rs that the scheduler moves around.

    A process owns an 8192-byte kernel stack obtained from the heap; the model
    keeps only the address of its first byte, supplied by the caller, because
    the allocation itself is outside the model. */
module Processes {

  /** Bytes in every process's kernel stack. */
  const STACK_SIZE: nat := 8192

  /** Lifecycle of a process; `Unused` is the default. */
  datatype ProcessState = Unused | Runnable | Exited | KernelReserved

  /** The callee-saved registers a context switch stores: ra, sp and s0..s11. */
  datatype CpuContext = CpuContext(
    ra: nat, sp: nat,
    s0: nat, s1: nat, s2: nat, s3: nat, s4: nat, s5: nat,
    s6: nat, s7: nat, s8: nat, s9: nat, s10: nat, s11: nat)

  /** The saved words in their memory order. */
  function Words(c: CpuContext): (w: seq<nat>)
    ensures |w| == 14 && w[0] == c.ra && w[1] == c.sp
  {
    [c.ra, c.sp, c.s0, c.s1, c.s2, c.s3, c.s4, c.s5, c.s6, c.s7, c.s8, c.s9, c.s10, c.s11]
  }

  /** `CpuContext::default()`: every saved word is 0. */
  function DefaultContext(): (c: CpuContext)
    ensures Words(c) == seq(14, _ => 0)
  {
    CpuContext(0, 0, 0, 0, 0, 0, 0, 0, 0, 0, 0, 0, 0, 0)
  }

  /** A process: its id, state, saved context and the base address of its
      kernel stack. */
  datatype Process = Process(pid: nat, state: ProcessState, context: CpuContext, stack: nat)
  {
    /** One past the last byte of the kernel stack. */
    function StackTop(): nat
    {
      stack + STACK_SIZE
    }
  }

  /** `Process::default()` with its fresh stack at `stack`. */
  function DefaultProcess(stack: nat): (p: Process)
    ensures p.pid == 0 && p.state == Unused && p.stack == stack
    ensures Words(p.context) == seq(14, _ => 0)
  {
    Process(0, Unused, DefaultContext(), stack)
  }

  /** What a `yield_control` hands over: a switch between two process ids, or
      (in the corrected scheduler only) carrying on with the same process. */
  datatype Event = Switch(from: nat, to: nat) | Stay(pid: nat)
}

=== FILE: process_creator.dfy ===
/** The fixed-array scheduler of src/process.rs (`ProcessCreator`), the
    predecessor of the queue-based one: two process slots, a separate idle
    process, and a reference to the process currently running.

    Each process's kernel stack lies inside its slot; the model keeps only
    the address of the stack's first byte, supplied by the caller. The
    running-process reference becomes an index (or the idle process). */
module ProcessCreator {
  import opened Common
  import Processes

  /** Number of process slots. */
  const MAX_PROCESSES: nat := 2
  /** Saved words per context, and the positions of ra and sp among them. */
  const CONTEXT_WORDS: nat := 14
  const RA: nat := 0
  const SP: nat := 1
  /** The return address `init` gives the idle process. */
  const IDLE_ENTRY: nat := 0xFFFF_FFFF

  /** Slot states; `Unused` is the default. */
  datatype SlotState = Unused | Runnable | Dead

  datatype Process = Process(pid: nat, state: SlotState, registers: seq<nat>, stack: nat)

  /** Which process the creator believes is running. */
  datatype Running = Idle | Slot(index: nat)

  datatype Creator = Creator(slots: seq<Process>, nextPid: nat, current: Option<Running>, idle: Process)

  /** What `create_process` reports: id, state and saved stack pointer. */
  datatype ProcessInfo = ProcessInfo(pid: nat, state: SlotState, stackPointer: nat)

  /** The shape the Rust types guarantee: two slots, 14 saved words per
      context, and a running reference that points at a slot or the idle
      process. */
  ghost predicate Valid(c: Creator)
  {
    && |c.slots| == MAX_PROCESSES
    && |c.idle.registers| == CONTEXT_WORDS
    && (forall i :: 0 <= i < |c.slots| ==> |c.slots[i].registers| == CONTEXT_WORDS)
    && (c.current.Some? && c.current.value.Slot? ==> c.current.value.index < MAX_PROCESSES)
  }

  /** A process with every saved word 0. */
  function Blank(pid: nat, state: SlotState, stack: nat): (p: Process)
    ensures p.pid == pid && p.state == state && p.stack == stack
    ensures p.registers == seq(CONTEXT_WORDS, _ => 0)
  {
    Process(pid, state, seq(CONTEXT_WORDS, _ => 0), stack)
  }

  /** `ProcessCreator::new`: both slots unused with id 0, a `Dead` idle
      process with id 0, nothing running, ids start at 1. */
  function New(idleStack: nat, slotStacks: seq<nat>): (c: Creator)
    requires |slotStacks| == MAX_PROCESSES
    ensures Valid(c)
    ensures forall i :: 0 <= i < MAX_PROCESSES ==>
      c.slots[i].pid == 0 && c.slots[i].state == Unused && c.slots[i].stack == slotStacks[i]
    ensures c.idle == Blank(0, Dead, idleStack)
    ensures c.nextPid == 1 && c.current == None
  {
    Creator([Blank(0, Unused, slotStacks[0]), Blank(0, Unused, slotStacks[1])], 1, None, Blank(0, Dead, idleStack))
  }

  /** `init_process`: the saved sp becomes the top of the kernel stack and the
      saved ra the entry point; a stack top that is not 16-byte aligned
      panics. The other saved words are kept. */
  function InitProcess(p: Process, entry: nat): (r: Result<Process>)
    requires |p.registers| == CONTEXT_WORDS
    ensures r.Fail? <==> (p.stack + Processes.STACK_SIZE) % 16 != 0
    ensures r.Fail? ==> r.fault == StackNotAligned
    ensures r.Ok? ==>
      && |r.value.registers| == CONTEXT_WORDS
      && r.value.registers[SP] == p.stack + Processes.STACK_SIZE && r.value.registers[RA] == entry
      && r.value.registers[2..] == p.registers[2..]
      && r.value.pid == p.pid && r.value.state == p.state && r.value.stack == p.stack
  {
    var sp := p.stack + Processes.STACK_SIZE;
    if sp % 16 != 0 then Fail(StackNotAligned)
    else Ok(p.(registers := p.registers[SP := sp][RA := entry]))
  }

  /** `init`: the idle process gets its stack and the return address
      IDLE_ENTRY, and becomes the running one. */
  function Init(c: Creator): (r: Result<Creator>)
    requires Valid(c)
    ensures r.Fail? <==> (c.idle.stack + Processes.STACK_SIZE) % 16 != 0
    ensures r.Ok? ==>
      && Valid(r.value)
      && r.value.current == Some(Idle)
      && r.value.idle.registers[RA] == IDLE_ENTRY
      && r.value.idle.registers[SP] == c.idle.stack + Processes.STACK_SIZE
      && r.value.idle.pid == c.idle.pid && r.value.idle.state == c.idle.state
      && r.value.slots == c.slots && r.value.nextPid == c.nextPid
  {
    match InitProcess(c.idle, IDLE_ENTRY)
    case Fail(f) => Fail(f)
    case Ok(idle) => Ok(c.(idle := idle, current := Some(Idle)))
  }

  // ---------------------------------------------------------------------------
  // create_process

  /** The highest-index unused slot, if any. */
  function LastUnused(slots: seq<Process>): (r: Option<nat>)
    ensures r.None? <==> forall j :: 0 <= j < |slots| ==> slots[j].state != Unused
    ensures r.Some? ==>
      && r.value < |slots| && slots[r.value].state == Unused
      && forall j :: r.value < j < |slots| ==> slots[j].state != Unused
  {
    if slots == [] then None
    else if slots[|slots| - 1].state == Unused then Some(|slots| - 1)
    else LastUnused(slots[..|slots| - 1])
  }

  /** The slot search of `create_process`: a forward scan in which every
      unused slot replaces the previous choice, so the last one wins. */
  method FindUnused(slots: seq<Process>) returns (r: Option<nat>)
    ensures r == LastUnused(slots)
  {
    r := None;
    for i := 0 to |slots|
      invariant r == LastUnused(slots[..i])
    {
      assert slots[..i + 1][..i] == slots[..i];
      if slots[i].state == Unused {
        r := Some(i);
      }
    }
    assert slots[..|slots|] == slots;
  }

  /** `create_process(entry)`: the highest-index unused slot becomes a
      `Runnable` process with the next id; with no unused slot the call
      panics. The id counter is a `u32`. */
  function CreateProcess(c: Creator, entry: nat): (r: Result<(Creator, ProcessInfo)>)
    requires Valid(c)
    ensures r.Panics(NoUnusedSlot) <==> forall j :: 0 <= j < MAX_PROCESSES ==> c.slots[j].state != Unused
    ensures r.Panics(ArithmeticOverflow) <==> LastUnused(c.slots).Some? && c.nextPid >= U32_MAX
    ensures r.Panics(StackNotAligned) <==>
      && LastUnused(c.slots).Some? && c.nextPid < U32_MAX
      && (c.slots[LastUnused(c.slots).value].stack + Processes.STACK_SIZE) % 16 != 0
    ensures r.Ok? ==>
      var (c', info) := r.value;
      && LastUnused(c.slots).Some?
      && var i := LastUnused(c.slots).value;
      && Valid(c')
      && c'.slots[i].pid == c.nextPid && c'.slots[i].state == Runnable
      && c'.slots[i].registers[SP] == c.slots[i].stack + Processes.STACK_SIZE && c'.slots[i].registers[RA] == entry
      && (forall j :: 0 <= j < MAX_PROCESSES && j != i ==> c'.slots[j] == c.slots[j])
      && c'.nextPid == c.nextPid + 1 && c'.current == c.current && c'.idle == c.idle
      && info == ProcessInfo(c.nextPid, Runnable, c.slots[i].stack + Processes.STACK_SIZE)
  {
    match LastUnused(c.slots)
    case None => Fail(NoUnusedSlot)
    case Some(i) =>
      if c.nextPid >= U32_MAX then Fail(ArithmeticOverflow)
      else
        match InitProcess(c.slots[i].(pid := c.nextPid, state := Runnable), entry)
        case Fail(f) => Fail(f)
        case Ok(p) =>
          Ok((c.(slots := c.slots[i := p], nextPid := c.nextPid + 1),
              ProcessInfo(p.pid, p.state, p.registers[SP])))
  }

  // ---------------------------------------------------------------------------
  // yield_control

  /** The id of the process the creator believes is running; with no running
      reference, the idle process's. */
  function RunningPid(c: Creator): nat
    requires Valid(c)
  {
    match c.current
    case None => c.idle.pid
    case Some(Idle) => c.idle.pid
    case Some(Slot(i)) => c.slots[i].pid
  }

  /** A slot `yield_control` may switch to: runnable, with another id. */
  predicate Eligible(p: Process, pid: nat)
  {
    p.pid != pid && p.state == Runnable
  }

  /** The lowest-index eligible slot, if any. */
  function FirstEligible(slots: seq<Process>, pid: nat): (r: Option<nat>)
    ensures r.None? <==> forall j :: 0 <= j < |slots| ==> !Eligible(slots[j], pid)
    ensures r.Some? ==>
      && r.value < |slots| && Eligible(slots[r.value], pid)
      && forall j :: 0 <= j < r.value ==> !Eligible(slots[j], pid)
  {
    if slots == [] then None
    else if Eligible(slots[0], pid) then Some(0)
    else match FirstEligible(slots[1..], pid)
      case None => None
      case Some(k) => Some(k + 1)
  }

  /** `yield_control`: switch to the lowest-index runnable slot whose id
      differs from the running one; with none, carry on unchanged. The
      switch message unwraps the running reference, so a switch before
      `init` panics. */
  function Yield(c: Creator): (r: Result<(Creator, Processes.Event)>)
    requires Valid(c)
    ensures r.Panics(UnwrapNone) <==> c.current.None? && FirstEligible(c.slots, c.idle.pid).Some?
    ensures r.Fail? ==> r.Panics(UnwrapNone)
    ensures r.Ok? ==> Valid(r.value.0) && r.value.0.slots == c.slots && r.value.0.nextPid == c.nextPid
    ensures r.Ok? ==> r.value.0.idle == c.idle
    ensures r.Ok? && r.value.1.Stay? ==> r.value.0 == c
  {
    var prev := RunningPid(c);
    match FirstEligible(c.slots, prev)
    case None => Ok((c, Processes.Stay(prev)))
    case Some(i) =>
      if c.current.None? then Fail(UnwrapNone)
      else Ok((c.(current := Some(Slot(i))), Processes.Switch(prev, c.slots[i].pid)))
  }

  /** The slot `yield_control` picks is the first runnable one with another
      id, and with none the running process stays. */
  lemma YieldPicksFirstEligible(c: Creator)
    requires Valid(c) && Yield(c).Ok?
    ensures var (c', e) := Yield(c).value;
      && (e.Switch? ==>
            && c'.current.Some? && c'.current.value.Slot?
            && var i := c'.current.value.index;
            && i < MAX_PROCESSES && Eligible(c.slots[i], RunningPid(c))
            && (forall j :: 0 <= j < i ==> !Eligible(c.slots[j], RunningPid(c)))
            && e == Processes.Switch(RunningPid(c), c.slots[i].pid))
      && (e.Stay? ==> forall j :: 0 <= j < MAX_PROCESSES ==> !Eligible(c.slots[j], RunningPid(c)))
  {
  }

  // ---------------------------------------------------------------------------
  // Ids and slots

  /** Ids as the creator hands them out: unused slots keep id 0, every other
      slot has its own id in [1, nextPid); the running reference never points
      at an unused slot. */
  ghost predicate Inv(c: Creator)
  {
    && Valid(c)
    && 1 <= c.nextPid <= U32_MAX
    && (forall i :: 0 <= i < MAX_PROCESSES && c.slots[i].state == Unused ==> c.slots[i].pid == 0)
    && (forall i :: 0 <= i < MAX_PROCESSES && c.slots[i].state != Unused ==> 1 <= c.slots[i].pid < c.nextPid)
    && (forall i, j :: 0 <= i < j < MAX_PROCESSES && c.slots[i].state != Unused && c.slots[j].state != Unused ==>
          c.slots[i].pid != c.slots[j].pid)
    && (c.current.Some? && c.current.value.Slot? ==> c.slots[c.current.value.index].state != Unused)
  }

  lemma NewEstablishesInv(idleStack: nat, slotStacks: seq<nat>)
    requires |slotStacks| == MAX_PROCESSES
    ensures Inv(New(idleStack, slotStacks))
    ensures Init(New(idleStack, slotStacks)).Ok? ==> Inv(Init(New(idleStack, slotStacks)).value)
  {
  }

  /** `create_process` keeps the invariant, hands out the next id, and leaves
      every used slot alone: slots never return to `Unused`. */
  lemma CreateKeepsInv(c: Creator, entry: nat)
    requires Inv(c) && CreateProcess(c, entry).Ok?
    ensures Inv(CreateProcess(c, entry).value.0)
    ensures forall j :: 0 <= j < MAX_PROCESSES && c.slots[j].state != Unused ==>
      CreateProcess(c, entry).value.0.slots[j] == c.slots[j]
  {
  }

  /** `yield_control` changes only the running reference and keeps the
      invariant. */
  lemma YieldKeepsInv(c: Creator)
    requires Inv(c) && Yield(c).Ok?
    ensures Inv(Yield(c).value.0)
  {
  }

  /** From a fresh creator, two processes fill the slots from the top, the
      third request panics, and yields alternate between the two. */
  lemma CreatorDemo(idleStack: nat, slotStacks: seq<nat>, entryA: nat, entryB: nat, entryC: nat)
    requires |slotStacks| == MAX_PROCESSES
    requires idleStack % 16 == 0 && slotStacks[0] % 16 == 0 && slotStacks[1] % 16 == 0
    ensures var c0 := Init(New(idleStack, slotStacks)).value;
      && CreateProcess(c0, entryA).Ok?
      && var c1 := CreateProcess(c0, entryA).value.0;
      && c1.slots[1].pid == 1
      && CreateProcess(c1, entryB).Ok?
      && var c2 := CreateProcess(c1, entryB).value.0;
      && c2.slots[0].pid == 2
      && CreateProcess(c2, entryC) == Fail(NoUnusedSlot)
      && Yield(c2).Ok? && Yield(c2).value.1 == Processes.Switch(0, 2)
      && var c3 := Yield(c2).value.0;
      && Yield(c3).Ok? && Yield(c3).value.1 == Processes.Switch(2, 1)
      && var c4 := Yield(c3).value.0;
      && Yield(c4).Ok? && Yield(c4).value.1 == Processes.Switch(1, 2)
  {
    var c0 := Init(New(idleStack, slotStacks)).value;
    var c1 := CreateProcess(c0, entryA).value.0;
    assert LastUnused(c0.slots) == Some(1);
    var c2 := CreateProcess(c1, entryB).value.0;
    assert LastUnused(c1.slots) == Some(0);
    assert FirstEligible(c2.slots, 0) == Some(0);
    var c3 := Yield(c2).value.0;
    assert FirstEligible(c3.slots, 2) == Some(1);
    var c4 := Yield(c3).value.0;
    assert FirstEligible(c4.slots, 1) == Some(0);
  }
}

=== FILE: scheduler.dfy ===
/** The cooperative scheduler of src/scheduler.rs: a FIFO queue of runnable
    processes, the process currently running, a staging slot for the process
    that ran before it, and the next process id.

    The register switch is the abstract event `Switch(from, to)`. Kernel
    stacks are allocated outside the model: each operation that creates a
    process receives the base address of its fresh stack. */
module Scheduler {
  import opened Common
  import opened Processes

  /** The number of queue entries `init` reserves room for. */
  const MAX_PROCESSES: nat := 2

  datatype Scheduler = Scheduler(
    queue: seq<Process>,
    nextPid: nat,
    current: Option<Process>,
    previous: Option<Process>)

  /** The summary `schedule_process` hands back. */
  datatype ProcessInfo = ProcessInfo(pid: nat, state: ProcessState, stackPointer: nat)

  /** `ProcessInfo::from`: a process's id, state and saved stack pointer. */
  function InfoFrom(p: Process): (i: ProcessInfo)
    ensures i.pid == p.pid && i.state == p.state && i.stackPointer == p.context.sp
  {
    ProcessInfo(p.pid, p.state, p.context.sp)
  }

  // ---------------------------------------------------------------------------
  // Construction

  /** `Scheduler::new`: nothing queued, nothing running, ids start at 1. */
  function New(): (s: Scheduler)
    ensures s.queue == [] && s.nextPid == 1 && s.current == None && s.previous == None
  {
    Scheduler([], 1, None, None)
  }

  /** `init_process`: the saved stack pointer becomes the top of the kernel
      stack and the return address the entry point; a stack top that is not
      16-byte aligned panics. */
  function InitProcess(p: Process, entry: nat): (r: Result<Process>)
    ensures r.Fail? <==> p.StackTop() % 16 != 0
    ensures r.Fail? ==> r.fault == StackNotAligned
    ensures r.Ok? ==>
      && r.value.context.sp == p.stack + STACK_SIZE
      && r.value.context.ra == entry
      && Words(r.value.context)[2..] == Words(p.context)[2..]
      && r.value.pid == p.pid && r.value.state == p.state && r.value.stack == p.stack
  {
    var sp := p.StackTop();
    if sp % 16 != 0 then Fail(StackNotAligned)
    else Ok(p.(context := p.context.(sp := sp, ra := entry)))
  }

  /** `create_idle_process`: pid 0, reserved for the kernel, entering the idle
      routine at `idleEntry`. */
  function CreateIdleProcess(stack: nat, idleEntry: nat): (r: Result<Process>)
    ensures r.Ok? <==> (stack + STACK_SIZE) % 16 == 0
    ensures r.Fail? ==> r.fault == StackNotAligned
    ensures r.Ok? ==>
      && r.value.pid == 0 && r.value.state == KernelReserved
      && r.value.context.ra == idleEntry && r.value.context.sp == stack + STACK_SIZE
      && r.value.stack == stack
  {
    InitProcess(Process(0, KernelReserved, DefaultContext(), stack), idleEntry)
  }

  /** An idle process as `create_idle_process` builds it. */
  ghost predicate IsIdle(p: Process, idleEntry: nat)
  {
    p.pid == 0 && p.state == KernelReserved && p.context.ra == idleEntry
  }

  /** `init`: an idle process becomes the running one. Reserving queue
      capacity has no observable effect. */
  function Init(s: Scheduler, idleStack: nat, idleEntry: nat): (r: Result<Scheduler>)
    ensures r.Ok? <==> (idleStack + STACK_SIZE) % 16 == 0
    ensures r.Fail? ==> r.fault == StackNotAligned
    ensures r.Ok? ==>
      && r.value.current.Some? && IsIdle(r.value.current.value, idleEntry)
      && r.value.current.value.context.sp == idleStack + STACK_SIZE
      && r.value.queue == s.queue && r.value.nextPid == s.nextPid && r.value.previous == s.previous
  {
    match CreateIdleProcess(idleStack, idleEntry)
    case Fail(f) => Fail(f)
    case Ok(idle) => Ok(s.(current := Some(idle)))
  }

  // ---------------------------------------------------------------------------
  // schedule_process

  /** `schedule_process(entry)`: a `Runnable` process with the next id joins
      the back of the queue, and the id counter (a `u32`) advances. */
  function ScheduleProcess(s: Scheduler, entry: nat, stack: nat): (r: Result<(Scheduler, ProcessInfo)>)
    ensures r.Panics(ArithmeticOverflow) <==> s.nextPid >= U32_MAX
    ensures r.Panics(StackNotAligned) <==> s.nextPid < U32_MAX && (stack + STACK_SIZE) % 16 != 0
    ensures r.Fail? ==> r.Panics(ArithmeticOverflow) || r.Panics(StackNotAligned)
    ensures r.Ok? ==>
      var (s', info) := r.value;
      && |s'.queue| == |s.queue| + 1 && s'.queue[..|s.queue|] == s.queue
      && var p := s'.queue[|s.queue|];
      && p.pid == s.nextPid && p.state == Runnable && p.stack == stack
      && p.context.sp == stack + STACK_SIZE && p.context.ra == entry
      && info == ProcessInfo(s.nextPid, Runnable, stack + STACK_SIZE)
      && s'.nextPid == s.nextPid + 1
      && s'.current == s.current && s'.previous == s.previous
  {
    if s.nextPid >= U32_MAX then Fail(ArithmeticOverflow)
    else
      var newcomer := Process(s.nextPid, Runnable, DefaultContext(), stack);
      match InitProcess(newcomer, entry)
      case Fail(f) => Fail(f)
      case Ok(p) =>
        assert (s.queue + [p])[..|s.queue|] == s.queue;
        Ok((s.(queue := s.queue + [p], nextPid := s.nextPid + 1), InfoFrom(p)))
  }

  // ---------------------------------------------------------------------------
  // yield_control and exit_process

  /** The processes waiting to run, oldest first: the queue, followed by the
      staged previous process when it is still `Runnable` (it is re-enqueued
      at the start of the next yield). */
  function Waiting(s: Scheduler): (line: seq<Process>)
    ensures |s.queue| <= |line| <= |s.queue| + 1 && line[..|s.queue|] == s.queue
  {
    match s.previous
    case Some(prev) =>
      if prev.state == Runnable then
        assert (s.queue + [prev])[..|s.queue|] == s.queue;
        s.queue + [prev]
      else s.queue
    case None => s.queue
  }

  /** `yield_control` as written. When nothing is waiting and the yielding
      process is still `Runnable`, it takes the staged process back as the
      running one and leaves the staging slot empty; the switch message then
      unwraps that empty slot and panics. */
  function YieldAsWritten(s: Scheduler, idleStack: nat, idleEntry: nat): (r: Result<(Scheduler, Event)>)
    ensures r.Panics(NoCurrentOnYield) <==> s.current.None?
    ensures r.Panics(UnwrapNone) <==>
      s.current.Some? && Waiting(s) == [] && s.current.value.state == Runnable
  {
    match s.current
    case None => Fail(NoCurrentOnYield)
    case Some(cur) =>
      var line := Waiting(s);
      if line != [] then
        Ok((Scheduler(line[1..], s.nextPid, Some(line[0]), Some(cur)), Switch(cur.pid, line[0].pid)))
      else if cur.state == Runnable then
        Fail(UnwrapNone)
      else
        match CreateIdleProcess(idleStack, idleEntry)
        case Fail(f) => Fail(f)
        case Ok(idle) => Ok((Scheduler([], s.nextPid, Some(idle), Some(cur)), Switch(cur.pid, 0)))
  }

  /** `yield_control` with the resume path completed: when nothing is waiting
      and the yielding process is still `Runnable`, it simply keeps running. */
  function Yield(s: Scheduler, idleStack: nat, idleEntry: nat): (r: Result<(Scheduler, Event)>)
    ensures r.Panics(NoCurrentOnYield) <==> s.current.None?
    ensures r.Fail? ==> r.Panics(NoCurrentOnYield) || r.Panics(StackNotAligned)
    ensures r.Ok? ==> r.value.0.current.Some? && r.value.0.nextPid == s.nextPid
  {
    match s.current
    case None => Fail(NoCurrentOnYield)
    case Some(cur) =>
      var line := Waiting(s);
      if line != [] then
        Ok((Scheduler(line[1..], s.nextPid, Some(line[0]), Some(cur)), Switch(cur.pid, line[0].pid)))
      else if cur.state == Runnable then
        Ok((Scheduler([], s.nextPid, Some(cur), None), Stay(cur.pid)))
      else
        match CreateIdleProcess(idleStack, idleEntry)
        case Fail(f) => Fail(f)
        case Ok(idle) => Ok((Scheduler([], s.nextPid, Some(idle), Some(cur)), Switch(cur.pid, 0)))
  }

  /** The code as written and the completed yield agree everywhere except on
      the resume path. */
  lemma YieldAsWrittenAgrees(s: Scheduler, idleStack: nat, idleEntry: nat)
    ensures !YieldAsWritten(s, idleStack, idleEntry).Panics(UnwrapNone) ==>
      YieldAsWritten(s, idleStack, idleEntry) == Yield(s, idleStack, idleEntry)
    ensures YieldAsWritten(s, idleStack, idleEntry).Panics(UnwrapNone) ==>
      Yield(s, idleStack, idleEntry) == Ok((Scheduler([], s.nextPid, s.current, None), Stay(s.current.value.pid)))
  {
  }

  /** `exit_process`: the running process is marked `Exited`, then yields. */
  function Exit(s: Scheduler, idleStack: nat, idleEntry: nat): (r: Result<(Scheduler, Event)>)
    ensures r.Panics(NoCurrentOnExit) <==> s.current.None?
    ensures r.Ok? ==> r.value.1.Switch? && r.value.1.from == s.current.value.pid
  {
    match s.current
    case None => Fail(NoCurrentOnExit)
    case Some(cur) => Yield(s.(current := Some(cur.(state := Exited))), idleStack, idleEntry)
  }

  /** Besides the missing current process, `exit_process` can only panic on
      the misaligned stack of the fresh idle process it may switch to. */
  lemma ExitFailures(s: Scheduler, idleStack: nat, idleEntry: nat)
    ensures Exit(s, idleStack, idleEntry).Fail? ==>
      Exit(s, idleStack, idleEntry).Panics(NoCurrentOnExit) || Exit(s, idleStack, idleEntry).Panics(StackNotAligned)
    ensures Exit(s, idleStack, idleEntry).Panics(StackNotAligned) ==> (idleStack + STACK_SIZE) % 16 != 0
  {
  }

  /** An exiting process is never `Runnable`, so `exit_process` never reaches
      the resume path: as written it behaves exactly as modelled. */
  lemma ExitNeverResumes(s: Scheduler, idleStack: nat, idleEntry: nat)
    requires s.current.Some?
    ensures Exit(s, idleStack, idleEntry)
      == YieldAsWritten(s.(current := Some(s.current.value.(state := Exited))), idleStack, idleEntry)
  {
    YieldAsWrittenAgrees(s.(current := Some(s.current.value.(state := Exited))), idleStack, idleEntry);
  }

  // ---------------------------------------------------------------------------
  // FIFO order

  /** A yield dequeues the oldest waiting process and runs it; the yielding
      process joins the back of the line exactly when it is still `Runnable`.
      With nobody waiting, a `Runnable` process keeps running and any other
      gives way to a fresh idle process. */
  lemma YieldIsFifo(s: Scheduler, idleStack: nat, idleEntry: nat)
    requires s.current.Some? && Yield(s, idleStack, idleEntry).Ok?
    ensures var (s', e) := Yield(s, idleStack, idleEntry).value;
      var cur := s.current.value;
      && (Waiting(s) != [] ==>
            && s' == Scheduler(Waiting(s)[1..], s.nextPid, Some(Waiting(s)[0]), Some(cur))
            && Waiting(s') == Waiting(s)[1..] + (if cur.state == Runnable then [cur] else [])
            && e == Switch(cur.pid, Waiting(s)[0].pid))
      && (Waiting(s) == [] && cur.state == Runnable ==>
            s' == Scheduler([], s.nextPid, Some(cur), None) && e == Stay(cur.pid))
      && (Waiting(s) == [] && cur.state != Runnable ==>
            && IsIdle(s'.current.value, idleEntry) && s'.queue == [] && s'.previous == Some(cur)
            && s'.nextPid == s.nextPid && e == Switch(cur.pid, 0))
  {
  }

  // ---------------------------------------------------------------------------
  // Conservation of process ids

  /** States whose processes are runnable, and states of processes created by
      `schedule_process` (those that carry a real id). */
  function RunningStates(): (st: set<ProcessState>)
    ensures Runnable in st && Exited !in st && KernelReserved !in st && Unused !in st
  {
    {Runnable}
  }

  function UserStates(): (st: set<ProcessState>)
    ensures Runnable in st && Exited in st && KernelReserved !in st && Unused !in st
  {
    {Runnable, Exited}
  }

  function Opt(o: Option<Process>): (ps: seq<Process>)
    ensures o.None? ==> ps == []
    ensures o.Some? ==> ps == [o.value]
  {
    if o.Some? then [o.value] else []
  }

  /** Every process the scheduler holds: staged, queued and running. */
  function Members(s: Scheduler): seq<Process>
  {
    Opt(s.previous) + s.queue + Opt(s.current)
  }

  /** 1 when `p` carries id `x` and one of `states`, else 0. */
  function Has(p: Process, states: set<ProcessState>, x: nat): (n: nat)
    ensures n <= 1 && (n == 1 <==> p.pid == x && p.state in states)
  {
    if p.pid == x && p.state in states then 1 else 0
  }

  /** How many processes of `ps` carry id `x` and one of `states`. */
  function Count(ps: seq<Process>, states: set<ProcessState>, x: nat): nat
  {
    if ps == [] then 0
    else Count(ps[..|ps| - 1], states, x) + Has(ps[|ps| - 1], states, x)
  }

  lemma {:induction false} CountAppend(a: seq<Process>, b: seq<Process>, states: set<ProcessState>, x: nat)
    ensures Count(a + b, states, x) == Count(a, states, x) + Count(b, states, x)
    decreases |b|
  {
    if b == [] {
      assert a + b == a;
    } else {
      var b0 := b[..|b| - 1];
      assert (a + b)[..|a + b| - 1] == a + b0;
      CountAppend(a, b0, states, x);
    }
  }

  lemma CountSingle(p: Process, states: set<ProcessState>, x: nat)
    ensures Count([p], states, x) == Has(p, states, x)
  {
    assert [p][..0] == [];
  }

  lemma CountOpt(o: Option<Process>, states: set<ProcessState>, x: nat)
    ensures Count(Opt(o), states, x) == if o.Some? then Has(o.value, states, x) else 0
  {
    if o.Some? {
      CountSingle(o.value, states, x);
    }
  }

  /** Counting fewer states counts fewer processes. */
  lemma {:induction false} CountMonotone(ps: seq<Process>, st1: set<ProcessState>, st2: set<ProcessState>, x: nat)
    requires st1 <= st2
    ensures Count(ps, st1, x) <= Count(ps, st2, x)
    decreases |ps|
  {
    if ps != [] {
      CountMonotone(ps[..|ps| - 1], st1, st2, x);
    }
  }

  /** An id no counted process carries is counted zero times. */
  lemma {:induction false} CountAbsent(ps: seq<Process>, states: set<ProcessState>, x: nat)
    requires forall i :: 0 <= i < |ps| && ps[i].state in states ==> ps[i].pid != x
    ensures Count(ps, states, x) == 0
    decreases |ps|
  {
    if ps != [] {
      CountAbsent(ps[..|ps| - 1], states, x);
    }
  }

  /** A counted process's id is counted. */
  lemma {:induction false} CountPresent(ps: seq<Process>, states: set<ProcessState>, k: nat)
    requires k < |ps| && ps[k].state in states
    ensures Count(ps, states, ps[k].pid) >= 1
    decreases |ps|
  {
    if k < |ps| - 1 {
      CountPresent(ps[..|ps| - 1], states, k);
    }
  }

  /** How many processes the scheduler holds with id `x` and one of `states`. */
  function Held(s: Scheduler, states: set<ProcessState>, x: nat): (n: nat)
    ensures n == Count(Opt(s.previous), states, x) + Count(s.queue, states, x) + Count(Opt(s.current), states, x)
  {
    CountAppend(Opt(s.previous) + s.queue, Opt(s.current), states, x);
    CountAppend(Opt(s.previous), s.queue, states, x);
    Count(Members(s), states, x)
  }

  /** The waiting line counts the queue and, when runnable, the staged process. */
  lemma WaitingCount(s: Scheduler, states: set<ProcessState>, x: nat)
    ensures Count(Waiting(s), states, x) == Count(s.queue, states, x) + (
      if s.previous.Some? && s.previous.value.state == Runnable then Has(s.previous.value, states, x)
      else 0)
  {
    if s.previous.Some? && s.previous.value.state == Runnable {
      CountAppend(s.queue, [s.previous.value], states, x);
      CountSingle(s.previous.value, states, x);
    }
  }

  /** The front of a line and the rest count as the whole line. */
  lemma CountFront(line: seq<Process>, states: set<ProcessState>, x: nat)
    requires line != []
    ensures Count(line, states, x) == Has(line[0], states, x) + Count(line[1..], states, x)
  {
    assert line == [line[0]] + line[1..];
    CountAppend([line[0]], line[1..], states, x);
    CountSingle(line[0], states, x);
  }

  /** What a successful yield lets go: the staged process, when it is no
      longer runnable. */
  function Dropped(s: Scheduler, states: set<ProcessState>, x: nat): nat
  {
    if s.previous.Some? && s.previous.value.state != Runnable then Has(s.previous.value, states, x)
    else 0
  }

  /** A yield keeps every process it holds except the dropped one. */
  lemma YieldHeld(s: Scheduler, idleStack: nat, idleEntry: nat, states: set<ProcessState>, x: nat)
    requires Yield(s, idleStack, idleEntry).Ok?
    requires KernelReserved !in states
    ensures Held(Yield(s, idleStack, idleEntry).value.0, states, x) + Dropped(s, states, x) == Held(s, states, x)
  {
    var s' := Yield(s, idleStack, idleEntry).value.0;
    var line := Waiting(s);
    YieldIsFifo(s, idleStack, idleEntry);
    WaitingCount(s, states, x);
    CountOpt(s.previous, states, x);
    CountOpt(s.current, states, x);
    CountOpt(s'.previous, states, x);
    CountOpt(s'.current, states, x);
    if line != [] {
      CountFront(line, states, x);
    } else {
      assert s.queue == [];
    }
  }

  /** Yield is a pure rearrangement of the runnable processes: none is lost
      and none appears. Processes that are not runnable can only be dropped. */
  lemma YieldConserves(s: Scheduler, idleStack: nat, idleEntry: nat)
    requires Yield(s, idleStack, idleEntry).Ok?
    ensures forall x: nat :: Held(Yield(s, idleStack, idleEntry).value.0, RunningStates(), x) == Held(s, RunningStates(), x)
    ensures forall x: nat :: Held(Yield(s, idleStack, idleEntry).value.0, UserStates(), x) <= Held(s, UserStates(), x)
  {
    forall x: nat
      ensures Held(Yield(s, idleStack, idleEntry).value.0, RunningStates(), x) == Held(s, RunningStates(), x)
      ensures Held(Yield(s, idleStack, idleEntry).value.0, UserStates(), x) <= Held(s, UserStates(), x)
    {
      YieldHeld(s, idleStack, idleEntry, RunningStates(), x);
      YieldHeld(s, idleStack, idleEntry, UserStates(), x);
    }
  }

  /** Scheduling adds exactly one process, carrying the new id. */
  lemma ScheduleAddsOne(s: Scheduler, entry: nat, stack: nat)
    requires ScheduleProcess(s, entry, stack).Ok?
    ensures forall x: nat :: (Held(ScheduleProcess(s, entry, stack).value.0, RunningStates(), x)
      == Held(s, RunningStates(), x) + (if x == s.nextPid then 1 else 0))
    ensures forall x: nat :: (Held(ScheduleProcess(s, entry, stack).value.0, UserStates(), x)
      == Held(s, UserStates(), x) + (if x == s.nextPid then 1 else 0))
  {
    var s' := ScheduleProcess(s, entry, stack).value.0;
    var p := s'.queue[|s.queue|];
    assert s'.queue == s.queue + [p];
    forall x: nat
      ensures Held(s', RunningStates(), x) == Held(s, RunningStates(), x) + (if x == s.nextPid then 1 else 0)
      ensures Held(s', UserStates(), x) == Held(s, UserStates(), x) + (if x == s.nextPid then 1 else 0)
    {
      CountAppend(s.queue, [p], RunningStates(), x);
      CountSingle(p, RunningStates(), x);
      CountAppend(s.queue, [p], UserStates(), x);
      CountSingle(p, UserStates(), x);
    }
  }

  // ---------------------------------------------------------------------------
  // The scheduler invariant

  /** Ids as the scheduler hands them out: the idle process is 0, every
      scheduled process got an id below the counter, and runnable ones are
      never 0. */
  ghost predicate Numbered(p: Process, nextPid: nat)
  {
    match p.state
    case KernelReserved => p.pid == 0
    case Runnable => 1 <= p.pid < nextPid
    case Exited => p.pid < nextPid
    case Unused => false
  }

  /** Only runnable processes queue; every held process is numbered; no
      nonzero id is held twice. */
  ghost predicate Inv(s: Scheduler)
  {
    && 1 <= s.nextPid <= U32_MAX
    && (forall i :: 0 <= i < |s.queue| ==> s.queue[i].state == Runnable)
    && (forall p :: p in Members(s) ==> Numbered(p, s.nextPid))
    && (forall x: nat :: x >= 1 ==> Held(s, UserStates(), x) <= 1)
  }

  lemma InitEstablishesInv(idleStack: nat, idleEntry: nat)
    requires Init(New(), idleStack, idleEntry).Ok?
    ensures Inv(Init(New(), idleStack, idleEntry).value)
  {
    var s := Init(New(), idleStack, idleEntry).value;
    assert Members(s) == [s.current.value];
    forall x: nat
      ensures Held(s, UserStates(), x) == 0
    {
      CountOpt(s.current, UserStates(), x);
    }
  }

  lemma ScheduleKeepsInv(s: Scheduler, entry: nat, stack: nat)
    requires Inv(s) && ScheduleProcess(s, entry, stack).Ok?
    ensures Inv(ScheduleProcess(s, entry, stack).value.0)
  {
    var s' := ScheduleProcess(s, entry, stack).value.0;
    var p := s'.queue[|s.queue|];
    assert s'.queue == s.queue + [p];
    assert Members(s') == Opt(s.previous) + s.queue + [p] + Opt(s.current);
    forall q | q in Members(s')
      ensures Numbered(q, s'.nextPid)
    {
      if q != p {
        assert q in Members(s);
      }
    }
    ScheduleAddsOne(s, entry, stack);
    var ms := Members(s);
    forall i | 0 <= i < |ms| && ms[i].state in UserStates()
      ensures ms[i].pid != s.nextPid
    {
      assert ms[i] in ms;
    }
    CountAbsent(ms, UserStates(), s.nextPid);
  }

  /** Under the invariant, every process in the ready line is a runnable
      member of the scheduler. */
  lemma WaitingRunnable(s: Scheduler)
    requires Inv(s)
    ensures forall i :: 0 <= i < |Waiting(s)| ==> Waiting(s)[i] in Members(s) && Waiting(s)[i].state == Runnable
  {
    var line := Waiting(s);
    forall i | 0 <= i < |line|
      ensures line[i] in Members(s) && line[i].state == Runnable
    {
      if i < |s.queue| {
        assert line[i] == s.queue[i];
      } else {
        assert line[i] == s.previous.value;
      }
    }
  }

  /** A yield holds only processes it was given, plus possibly the idle
      process it creates, so every held process stays numbered. */
  lemma YieldNumbered(s: Scheduler, idleStack: nat, idleEntry: nat)
    requires Inv(s) && Yield(s, idleStack, idleEntry).Ok?
    ensures var s' := Yield(s, idleStack, idleEntry).value.0;
      forall q :: q in Members(s') ==> Numbered(q, s'.nextPid)
  {
    var s' := Yield(s, idleStack, idleEntry).value.0;
    var cur := s.current.value;
    var line := Waiting(s);
    YieldIsFifo(s, idleStack, idleEntry);
    WaitingRunnable(s);
    forall q | q in Members(s')
      ensures Numbered(q, s'.nextPid)
    {
      if line == [] && cur.state != Runnable && q == s'.current.value {
      } else if line != [] && q in line[1..] {
        var i :| 0 <= i < |line[1..]| && line[1..][i] == q;
        assert q == line[i + 1];
      } else {
        assert q in Members(s);
      }
    }
  }

  lemma YieldKeepsInv(s: Scheduler, idleStack: nat, idleEntry: nat)
    requires Inv(s) && Yield(s, idleStack, idleEntry).Ok?
    ensures Inv(Yield(s, idleStack, idleEntry).value.0)
  {
    YieldIsFifo(s, idleStack, idleEntry);
    YieldConserves(s, idleStack, idleEntry);
    WaitingRunnable(s);
    YieldNumbered(s, idleStack, idleEntry);
  }

  /** Marking the running process `Exited` keeps the invariant. */
  lemma MarkExitedKeepsInv(s: Scheduler)
    requires Inv(s) && s.current.Some?
    ensures Inv(s.(current := Some(s.current.value.(state := Exited))))
  {
    var cur := s.current.value;
    var s1 := s.(current := Some(cur.(state := Exited)));
    forall q | q in Members(s1)
      ensures Numbered(q, s1.nextPid)
    {
      if q != cur.(state := Exited) {
        assert q in Opt(s.previous) + s.queue;
        assert q in Members(s);
      } else {
        assert cur in Members(s);
      }
    }
    forall x: nat | x >= 1
      ensures Held(s1, UserStates(), x) <= 1
    {
      CountOpt(s.current, UserStates(), x);
      CountOpt(s1.current, UserStates(), x);
      assert cur in Members(s);
      assert Held(s, UserStates(), x) <= 1;
      if cur.state == KernelReserved {
        assert Has(cur.(state := Exited), UserStates(), x) == 0;
      } else {
        assert Has(cur.(state := Exited), UserStates(), x) == Has(cur, UserStates(), x);
      }
    }
  }

  lemma ExitKeepsInv(s: Scheduler, idleStack: nat, idleEntry: nat)
    requires Inv(s) && Exit(s, idleStack, idleEntry).Ok?
    ensures Inv(Exit(s, idleStack, idleEntry).value.0)
  {
    MarkExitedKeepsInv(s);
    YieldKeepsInv(s.(current := Some(s.current.value.(state := Exited))), idleStack, idleEntry);
  }

  /** `exit_process` takes the running process out of the runnable ones and
      keeps all others. */
  lemma ExitConserves(s: Scheduler, idleStack: nat, idleEntry: nat)
    requires Exit(s, idleStack, idleEntry).Ok?
    ensures forall x: nat :: (Held(Exit(s, idleStack, idleEntry).value.0, RunningStates(), x)
      + Has(s.current.value, RunningStates(), x) == Held(s, RunningStates(), x))
  {
    var cur := s.current.value;
    var s1 := s.(current := Some(cur.(state := Exited)));
    YieldConserves(s1, idleStack, idleEntry);
    forall x: nat
      ensures Held(Exit(s, idleStack, idleEntry).value.0, RunningStates(), x)
        + Has(cur, RunningStates(), x) == Held(s, RunningStates(), x)
    {
      CountOpt(s.current, RunningStates(), x);
      CountOpt(s1.current, RunningStates(), x);
    }
  }

  /** An exited process is never runnable again: right after `exit_process`
      no runnable process carries its id and none is queued, later yields keep
      it so (`YieldConserves`), and `schedule_process` only adds the fresh id
      (`ScheduleAddsOne`). */
  lemma ExitedNeverRequeued(s: Scheduler, idleStack: nat, idleEntry: nat)
    requires Inv(s) && Exit(s, idleStack, idleEntry).Ok? && s.current.value.pid >= 1
    ensures Held(Exit(s, idleStack, idleEntry).value.0, RunningStates(), s.current.value.pid) == 0
    ensures forall i :: 0 <= i < |Exit(s, idleStack, idleEntry).value.0.queue| ==>
      Exit(s, idleStack, idleEntry).value.0.queue[i].pid != s.current.value.pid
  {
    var cur := s.current.value;
    var x := cur.pid;
    var s' := Exit(s, idleStack, idleEntry).value.0;
    ExitConserves(s, idleStack, idleEntry);
    CountOpt(s.current, UserStates(), x);
    CountOpt(s.current, RunningStates(), x);
    CountMonotone(Opt(s.previous), RunningStates(), UserStates(), x);
    CountMonotone(s.queue, RunningStates(), UserStates(), x);
    assert cur in Members(s);
    assert Held(s, UserStates(), x) <= 1;
    assert Held(s', RunningStates(), x) + Has(cur, RunningStates(), x) == Held(s, RunningStates(), x);
    assert Held(s', RunningStates(), x) == 0;
    ExitKeepsInv(s, idleStack, idleEntry);
    forall i | 0 <= i < |s'.queue|
      ensures s'.queue[i].pid != x
    {
      var k := |Opt(s'.previous)| + i;
      assert Members(s')[k] == s'.queue[i];
      CountPresent(Members(s'), RunningStates(), k);
    }
  }

  // ---------------------------------------------------------------------------
  // The resume path of yield_control

  /** A runnable process alone with the staged idle process: the code as
      written panics, the completed yield keeps it running. */
  lemma LoneResume(a: Process, i0: Process, n: nat, idleStack: nat, idleEntry: nat)
    requires a.state == Runnable && i0.state == KernelReserved
    ensures YieldAsWritten(Scheduler([], n, Some(a), Some(i0)), idleStack, idleEntry) == Fail(UnwrapNone)
    ensures Yield(Scheduler([], n, Some(a), Some(i0)), idleStack, idleEntry)
      == Ok((Scheduler([], n, Some(a), None), Stay(a.pid)))
  {
    assert Waiting(Scheduler([], n, Some(a), Some(i0))) == [];
  }

  /** With one process scheduled, the boot thread yields to it; when that
      process yields in turn, nothing is waiting and it is still `Runnable`:
      the code as written panics on the empty staging slot, the completed
      yield lets it carry on. */
  lemma ResumeFinding(bootStack: nat, idleEntry: nat, stackA: nat, entryA: nat, idleStack: nat)
    requires bootStack % 16 == 0 && stackA % 16 == 0
    ensures Init(New(), bootStack, idleEntry).Ok?
    ensures var s0 := Init(New(), bootStack, idleEntry).value;
      && ScheduleProcess(s0, entryA, stackA).Ok?
      && var s1 := ScheduleProcess(s0, entryA, stackA).value.0;
      && Yield(s1, idleStack, idleEntry).Ok?
      && var (s2, e) := Yield(s1, idleStack, idleEntry).value;
      && e == Switch(0, 1)
      && YieldAsWritten(s2, idleStack, idleEntry) == Fail(UnwrapNone)
      && Yield(s2, idleStack, idleEntry).Ok?
      && Yield(s2, idleStack, idleEntry).value.1 == Stay(1)
  {
    var i0 := CreateIdleProcess(bootStack, idleEntry).value;
    var s0 := Scheduler([], 1, Some(i0), None);
    var a := DemoProcess(1, stackA, entryA);
    InitAligned(New(), bootStack, idleEntry);
    ScheduleAligned(s0, entryA, stackA);
    assert [a] == [a] + [];
    IdleFirstYield(a, [], 2, i0, idleStack, idleEntry);
    LoneResume(a, i0, 2, idleStack, idleEntry);
  }

  // ---------------------------------------------------------------------------
  // The demonstration of src/main.rs

  /** How often each demonstration process yields before it exits. */
  const YIELDS: nat := 3

  /** The switches a run performed, and the panic that ended it (`None` when
      the step budget ran out first). */
  datatype Outcome = Outcome(trace: seq<Event>, stop: Option<Fault>)

  /** At most `fuel` steps of the demonstration: the running process, if it is
      a user process, yields until it has yielded YIELDS times and then exits;
      the idle process enters its idle routine, which panics. `done` counts
      the yields of each id. */
  function Run(s: Scheduler, done: map<nat, nat>, idleStack: nat, idleEntry: nat, fuel: nat): Outcome
    decreases fuel
  {
    if fuel == 0 then Outcome([], None)
    else match s.current
      case None => Outcome([], Some(NoCurrentOnYield))
      case Some(p) =>
        if p.state == KernelReserved then Outcome([], Some(KernelIdle))
        else
          var k := if p.pid in done then done[p.pid] else 0;
          var r := if k < YIELDS then Yield(s, idleStack, idleEntry) else Exit(s, idleStack, idleEntry);
          match r
          case Fail(f) => Outcome([], Some(f))
          case Ok((s', e)) =>
            var rest := Run(s', done[p.pid := k + 1], idleStack, idleEntry, fuel - 1);
            Outcome([e] + rest.trace, rest.stop)
  }

  /** `init` on an aligned stack installs the idle process and changes
      nothing else. */
  lemma InitAligned(s: Scheduler, idleStack: nat, idleEntry: nat)
    requires idleStack % 16 == 0
    ensures CreateIdleProcess(idleStack, idleEntry).Ok?
    ensures Init(s, idleStack, idleEntry) == Ok(s.(current := Some(CreateIdleProcess(idleStack, idleEntry).value)))
  {
    assert (idleStack + STACK_SIZE) % 16 == 0;
  }

  /** `schedule_process` on an aligned stack, below the id limit, appends a
      fresh runnable process with the next id and returns its information. */
  lemma ScheduleAligned(s: Scheduler, entry: nat, stack: nat)
    requires stack % 16 == 0 && s.nextPid < U32_MAX
    ensures ScheduleProcess(s, entry, stack)
      == Ok((s.(queue := s.queue + [DemoProcess(s.nextPid, stack, entry)], nextPid := s.nextPid + 1),
             ProcessInfo(s.nextPid, Runnable, stack + STACK_SIZE)))
  {
    assert (stack + STACK_SIZE) % 16 == 0;
  }

  /** `init_scheduler`: the idle process on the boot stack, then processes A
      and B scheduled in that order. */
  function Setup(bootStack: nat, idleEntry: nat, stackA: nat, entryA: nat, stackB: nat, entryB: nat)
    : Result<Scheduler>
  {
    var s0 := Init(New(), bootStack, idleEntry);
    if s0.Fail? then Fail(s0.fault)
    else
      var s1 := ScheduleProcess(s0.value, entryA, stackA);
      if s1.Fail? then Fail(s1.fault)
      else
        var s2 := ScheduleProcess(s1.value.0, entryB, stackB);
        if s2.Fail? then Fail(s2.fault)
        else Ok(s2.value.0)
  }

  /** `init_scheduler` and then `yield_to_init`: the boot thread yields. */
  function Boot(bootStack: nat, idleEntry: nat, stackA: nat, entryA: nat, stackB: nat, entryB: nat, idleStack: nat)
    : Result<(Scheduler, Event)>
  {
    var s := Setup(bootStack, idleEntry, stackA, entryA, stackB, entryB);
    if s.Fail? then Fail(s.fault) else Yield(s.value, idleStack, idleEntry)
  }

  /** A demonstration process as `schedule_process` sets it up. */
  function DemoProcess(pid: nat, stack: nat, entry: nat): Process
  {
    Process(pid, Runnable, DefaultContext().(sp := stack + STACK_SIZE, ra := entry), stack)
  }

  /** After `init_scheduler`, A (pid 1) and B (pid 2) wait in that order
      behind the running idle process. */
  lemma DemoSetup(bootStack: nat, idleEntry: nat, stackA: nat, entryA: nat, stackB: nat, entryB: nat)
    requires bootStack % 16 == 0 && stackA % 16 == 0 && stackB % 16 == 0
    ensures CreateIdleProcess(bootStack, idleEntry).Ok?
    ensures Setup(bootStack, idleEntry, stackA, entryA, stackB, entryB)
      == Ok(Scheduler([DemoProcess(1, stackA, entryA), DemoProcess(2, stackB, entryB)], 3,
                      Some(CreateIdleProcess(bootStack, idleEntry).value), None))
  {
    var i0 := CreateIdleProcess(bootStack, idleEntry).value;
    var s0 := Scheduler([], 1, Some(i0), None);
    InitAligned(New(), bootStack, idleEntry);
    ScheduleAligned(s0, entryA, stackA);
    var a := DemoProcess(1, stackA, entryA);
    assert Init(New(), bootStack, idleEntry) == Ok(s0);
    assert s0.queue + [a] == [a];
    var s1 := s0.(queue := [a], nextPid := 2);
    assert ScheduleProcess(s0, entryA, stackA).value.0 == s1;
    ScheduleAligned(s1, entryB, stackB);
    assert ScheduleProcess(s1, entryB, stackB).value.0.queue == [a, DemoProcess(2, stackB, entryB)];
  }

  /** A yield of the idle process with nothing staged hands over to the
      head of the queue and stages the idle process. */
  lemma IdleFirstYield(a: Process, rest: seq<Process>, n: nat, i0: Process, idleStack: nat, idleEntry: nat)
    requires i0.state == KernelReserved
    ensures Yield(Scheduler([a] + rest, n, Some(i0), None), idleStack, idleEntry)
      == Ok((Scheduler(rest, n, Some(a), Some(i0)), Switch(i0.pid, a.pid)))
  {
    assert Waiting(Scheduler([a] + rest, n, Some(i0), None)) == [a] + rest && ([a] + rest)[1..] == rest;
  }

  /** After `yield_to_init`, A runs, B waits and the boot thread is staged. */
  lemma DemoBoot(bootStack: nat, idleEntry: nat, stackA: nat, entryA: nat, stackB: nat, entryB: nat, idleStack: nat)
    requires bootStack % 16 == 0 && stackA % 16 == 0 && stackB % 16 == 0
    ensures CreateIdleProcess(bootStack, idleEntry).Ok?
    ensures var i0 := CreateIdleProcess(bootStack, idleEntry).value;
      && i0.state == KernelReserved
      && Boot(bootStack, idleEntry, stackA, entryA, stackB, entryB, idleStack)
        == Ok((Scheduler([DemoProcess(2, stackB, entryB)], 3, Some(DemoProcess(1, stackA, entryA)), Some(i0)),
               Switch(0, 1)))
  {
    DemoSetup(bootStack, idleEntry, stackA, entryA, stackB, entryB);
    var i0 := CreateIdleProcess(bootStack, idleEntry).value;
    var b := DemoProcess(2, stackB, entryB);
    assert [DemoProcess(1, stackA, entryA), b] == [DemoProcess(1, stackA, entryA)] + [b];
    IdleFirstYield(DemoProcess(1, stackA, entryA), [b], 3, i0, idleStack, idleEntry);
  }

  /** The scheduler right after `boot` satisfies the invariant. */
  lemma BootKeepsInv(bootStack: nat, idleEntry: nat, stackA: nat, entryA: nat, stackB: nat, entryB: nat, idleStack: nat)
    requires Boot(bootStack, idleEntry, stackA, entryA, stackB, entryB, idleStack).Ok?
    ensures Inv(Boot(bootStack, idleEntry, stackA, entryA, stackB, entryB, idleStack).value.0)
  {
    InitEstablishesInv(bootStack, idleEntry);
    var s0 := Init(New(), bootStack, idleEntry).value;
    ScheduleKeepsInv(s0, entryA, stackA);
    var s1 := ScheduleProcess(s0, entryA, stackA).value.0;
    ScheduleKeepsInv(s1, entryB, stackB);
    YieldKeepsInv(ScheduleProcess(s1, entryB, stackB).value.0, idleStack, idleEntry);
  }

  /** Done yields of the process with id `pid`. */
  function Yields(done: map<nat, nat>, pid: nat): nat
  {
    if pid in done then done[pid] else 0
  }

  /** With an empty queue and a runnable staged process `q`, a step of the
      runnable `p` hands over to `q`: by a yield while `p` has yields left, by
      an exit otherwise. */
  lemma RunHandOff(p: Process, q: Process, n: nat, done: map<nat, nat>, idleStack: nat, idleEntry: nat, fuel: nat)
    requires p.state == Runnable && q.state == Runnable && fuel >= 1
    ensures var k := Yields(done, p.pid);
      var p' := if k < YIELDS then p else p.(state := Exited);
      var rest := Run(Scheduler([], n, Some(q), Some(p')), done[p.pid := k + 1], idleStack, idleEntry, fuel - 1);
      Run(Scheduler([], n, Some(p), Some(q)), done, idleStack, idleEntry, fuel)
        == Outcome([Switch(p.pid, q.pid)] + rest.trace, rest.stop)
  {
    var k := Yields(done, p.pid);
    var s := Scheduler([], n, Some(p), Some(q));
    assert Waiting(s) == [q] && [q][1..] == [];
    assert Waiting(s.(current := Some(p.(state := Exited)))) == [q];
  }

  /** Every yield of the demonstration finds some process waiting: the boot
      yield and A's first yield find a non-empty queue, and every later yield
      finds the other process staged. So the code's yield, with its resume
      path, takes each step the completed one does, and the demonstration's
      trace is the code's (exits never resume, by `ExitNeverResumes`). */
  lemma DemoFollowsCode(p: Process, q: Process, b: Process, i0: Process, n: nat, idleStack: nat, idleEntry: nat)
    requires q.state == Runnable
    ensures YieldAsWritten(Scheduler([p, b], n, Some(i0), None), idleStack, idleEntry)
      == Yield(Scheduler([p, b], n, Some(i0), None), idleStack, idleEntry)
    ensures YieldAsWritten(Scheduler([b], n, Some(p), Some(i0)), idleStack, idleEntry)
      == Yield(Scheduler([b], n, Some(p), Some(i0)), idleStack, idleEntry)
    ensures YieldAsWritten(Scheduler([], n, Some(p), Some(q)), idleStack, idleEntry)
      == Yield(Scheduler([], n, Some(p), Some(q)), idleStack, idleEntry)
  {
    YieldAsWrittenAgrees(Scheduler([p, b], n, Some(i0), None), idleStack, idleEntry);
    YieldAsWrittenAgrees(Scheduler([b], n, Some(p), Some(i0)), idleStack, idleEntry);
    YieldAsWrittenAgrees(Scheduler([], n, Some(p), Some(q)), idleStack, idleEntry);
  }

  /** When the last user process exits with nobody left, the idle process
      takes over and panics. */
  lemma RunLastExit(p: Process, q: Process, n: nat, done: map<nat, nat>, idleStack: nat, idleEntry: nat, fuel: nat)
    requires p.state == Runnable && q.state == Exited && fuel >= 2 && Yields(done, p.pid) >= YIELDS
    requires idleStack % 16 == 0
    ensures Run(Scheduler([], n, Some(p), Some(q)), done, idleStack, idleEntry, fuel)
      == Outcome([Switch(p.pid, 0)], Some(KernelIdle))
  {
    var s := Scheduler([], n, Some(p), Some(q));
    assert Waiting(s.(current := Some(p.(state := Exited)))) == [];
  }

  /** A's first yield: B leaves the queue, the boot thread is dropped. */
  lemma RunFirst(a: Process, b: Process, i0: Process, idleStack: nat, idleEntry: nat, fuel: nat)
    requires a.pid == 1 && a.state == Runnable && b.state == Runnable && i0.state == KernelReserved && fuel >= 1
    ensures var rest := Run(Scheduler([], 3, Some(b), Some(a)), map[1 := 1], idleStack, idleEntry, fuel - 1);
      Run(Scheduler([b], 3, Some(a), Some(i0)), map[], idleStack, idleEntry, fuel)
        == Outcome([Switch(1, b.pid)] + rest.trace, rest.stop)
  {
    var s := Scheduler([b], 3, Some(a), Some(i0));
    assert Waiting(s) == [b] && [b][1..] == [];
    assert map[][1 := 1] == map[1 := 1];
  }

  /** A exits, B exits, the idle process panics. */
  lemma DemoRunEnd(a: Process, b: Process, idleStack: nat, idleEntry: nat, fuel: nat)
    requires a.pid == 1 && a.state == Runnable && b.pid == 2 && b.state == Runnable && idleStack % 16 == 0
    requires fuel >= 3
    ensures Run(Scheduler([], 3, Some(a), Some(b)), map[1 := 3, 2 := 3], idleStack, idleEntry, fuel)
      == Outcome([Switch(1, 2), Switch(2, 0)], Some(KernelIdle))
  {
    var d: map<nat, nat> := map[1 := 3, 2 := 3];
    RunHandOff(a, b, 3, d, idleStack, idleEntry, fuel);
    RunLastExit(b, a.(state := Exited), 3, d[1 := 4], idleStack, idleEntry, fuel - 1);
  }

  /** B's third yield, then the ending. */
  lemma DemoRunB3(a: Process, b: Process, idleStack: nat, idleEntry: nat, fuel: nat)
    requires a.pid == 1 && a.state == Runnable && b.pid == 2 && b.state == Runnable && idleStack % 16 == 0
    requires fuel >= 4
    ensures Run(Scheduler([], 3, Some(b), Some(a)), map[1 := 3, 2 := 2], idleStack, idleEntry, fuel)
      == Outcome([Switch(2, 1), Switch(1, 2), Switch(2, 0)], Some(KernelIdle))
  {
    var d: map<nat, nat> := map[1 := 3, 2 := 2];
    assert d[2 := 3] == map[1 := 3, 2 := 3];
    DemoRunEnd(a, b, idleStack, idleEntry, fuel - 1);
    RunHandOff(b, a, 3, d, idleStack, idleEntry, fuel);
  }

  /** A's third yield onwards. */
  lemma DemoRunA3(a: Process, b: Process, idleStack: nat, idleEntry: nat, fuel: nat)
    requires a.pid == 1 && a.state == Runnable && b.pid == 2 && b.state == Runnable && idleStack % 16 == 0
    requires fuel >= 5
    ensures Run(Scheduler([], 3, Some(a), Some(b)), map[1 := 2, 2 := 2], idleStack, idleEntry, fuel)
      == Outcome([Switch(1, 2), Switch(2, 1), Switch(1, 2), Switch(2, 0)], Some(KernelIdle))
  {
    var d: map<nat, nat> := map[1 := 2, 2 := 2];
    assert d[1 := 3] == map[1 := 3, 2 := 2];
    DemoRunB3(a, b, idleStack, idleEntry, fuel - 1);
    RunHandOff(a, b, 3, d, idleStack, idleEntry, fuel);
  }

  /** B's second yield onwards. */
  lemma DemoRunB2(a: Process, b: Process, idleStack: nat, idleEntry: nat, fuel: nat)
    requires a.pid == 1 && a.state == Runnable && b.pid == 2 && b.state == Runnable && idleStack % 16 == 0
    requires fuel >= 6
    ensures Run(Scheduler([], 3, Some(b), Some(a)), map[1 := 2, 2 := 1], idleStack, idleEntry, fuel)
      == Outcome([Switch(2, 1), Switch(1, 2), Switch(2, 1), Switch(1, 2), Switch(2, 0)], Some(KernelIdle))
  {
    var d: map<nat, nat> := map[1 := 2, 2 := 1];
    assert d[2 := 2] == map[1 := 2, 2 := 2];
    DemoRunA3(a, b, idleStack, idleEntry, fuel - 1);
    RunHandOff(b, a, 3, d, idleStack, idleEntry, fuel);
  }

  /** A's second yield onwards. */
  lemma DemoRunA2(a: Process, b: Process, idleStack: nat, idleEntry: nat, fuel: nat)
    requires a.pid == 1 && a.state == Runnable && b.pid == 2 && b.state == Runnable && idleStack % 16 == 0
    requires fuel >= 7
    ensures Run(Scheduler([], 3, Some(a), Some(b)), map[1 := 1, 2 := 1], idleStack, idleEntry, fuel)
      == Outcome([Switch(1, 2), Switch(2, 1), Switch(1, 2), Switch(2, 1), Switch(1, 2), Switch(2, 0)],
                 Some(KernelIdle))
  {
    var d: map<nat, nat> := map[1 := 1, 2 := 1];
    assert d[1 := 2] == map[1 := 2, 2 := 1];
    DemoRunB2(a, b, idleStack, idleEntry, fuel - 1);
    RunHandOff(a, b, 3, d, idleStack, idleEntry, fuel);
  }

  /** B's first yield onwards. */
  lemma DemoRunB1(a: Process, b: Process, idleStack: nat, idleEntry: nat, fuel: nat)
    requires a.pid == 1 && a.state == Runnable && b.pid == 2 && b.state == Runnable && idleStack % 16 == 0
    requires fuel >= 8
    ensures Run(Scheduler([], 3, Some(b), Some(a)), map[1 := 1], idleStack, idleEntry, fuel)
      == Outcome([Switch(2, 1), Switch(1, 2), Switch(2, 1), Switch(1, 2), Switch(2, 1), Switch(1, 2),
                  Switch(2, 0)], Some(KernelIdle))
  {
    var d: map<nat, nat> := map[1 := 1];
    assert d[2 := 1] == map[1 := 1, 2 := 1];
    DemoRunA2(a, b, idleStack, idleEntry, fuel - 1);
    RunHandOff(b, a, 3, d, idleStack, idleEntry, fuel);
  }

  /** The run from A's first yield onwards. */
  lemma DemoRun(a: Process, b: Process, i0: Process, idleStack: nat, idleEntry: nat, fuel: nat)
    requires a.pid == 1 && a.state == Runnable && b.pid == 2 && b.state == Runnable
    requires i0.state == KernelReserved && idleStack % 16 == 0 && fuel >= 9
    ensures Run(Scheduler([b], 3, Some(a), Some(i0)), map[], idleStack, idleEntry, fuel)
      == Outcome([Switch(1, 2), Switch(2, 1), Switch(1, 2), Switch(2, 1), Switch(1, 2), Switch(2, 1), Switch(1, 2),
                  Switch(2, 0)], Some(KernelIdle))
  {
    DemoRunB1(a, b, idleStack, idleEntry, fuel - 1);
    RunFirst(a, b, i0, idleStack, idleEntry, fuel);
  }

  /** A and B alternate until both have exited, then the idle process runs
      and panics: nine switches, the first (`e`) from the boot thread, however many
      steps the run is allowed beyond those nine. */
  lemma DemoTrace(bootStack: nat, idleEntry: nat, stackA: nat, entryA: nat, stackB: nat, entryB: nat, idleStack: nat,
                  fuel: nat)
    requires bootStack % 16 == 0 && stackA % 16 == 0 && stackB % 16 == 0 && idleStack % 16 == 0
    requires fuel >= 9
    ensures Boot(bootStack, idleEntry, stackA, entryA, stackB, entryB, idleStack).Ok?
    ensures var (s, e) := Boot(bootStack, idleEntry, stackA, entryA, stackB, entryB, idleStack).value;
      var o := Run(s, map[], idleStack, idleEntry, fuel);
      && e == Switch(0, 1)
      && o.trace == [Switch(1, 2), Switch(2, 1), Switch(1, 2), Switch(2, 1), Switch(1, 2), Switch(2, 1), Switch(1, 2),
                     Switch(2, 0)]
      && o.stop == Some(KernelIdle)
  {
    DemoBoot(bootStack, idleEntry, stackA, entryA, stackB, entryB, idleStack);
    DemoRun(DemoProcess(1, stackA, entryA), DemoProcess(2, stackB, entryB),
            CreateIdleProcess(bootStack, idleEntry).value, idleStack, idleEntry, fuel);
  }
}
